=== FILE: README.md ===
# Blackjack server and client: a Dafny model of the game core

The system is a TCP blackjack server (`server_blackjack.c`) and its
interactive client (`client_blackjack.c`). This project models the parts
that decide things, as pure functions over explicit inputs:

- **Hand engine** (`Engine`, `engine.dfy`). `draw_card` and `handle_game`
  become one function of the `rand()` results and the client replies. It
  covers the face-up card, the player's loop with its prefix-matched
  "no"/"yes", ace choices read with `atoi`, the dealer's draw to 17, and the
  ordered resolution checks.
- **Ranking store** (`Rankings`, `rankings.dfy`). The global `players` array
  becomes a `seq<Player>` of at most ten records. It has the update
  (`update_player_stats`), the file text (`save_rankings`), the `fscanf`
  reading loop (`load_rankings`) and the listing (`display_rankings`).
- **Session** (`Session`, `session.dfy`). The menu loop of `handle_client`
  dispatches on the first byte of each reply. The table is saved
  unconditionally when the loop ends.
- **Client decisions** (`Client`, `client.dfy`). Given a server message and a
  typed line, the client sends the line, refuses it, or answers nothing. It
  also chooses the address family from the start-up input.
- **Protocol agreement** (`Protocol`, `protocol.dfy`). The server's prompts
  carry the client's match texts. The client's answers are read by the
  server as intended.
- **Supporting modules.**
  - `Messages` (`messages.dfy`): every text the server sends, and the bytes
    one `send` puts on the wire.
  - `CText` (`ctext.dfy`): the C library behaviour the programs rely on.
    This covers NUL-terminated strings, `strstr`, `printf("%d")`, `atoi`,
    and `scanf`'s `%d` and `%49s` conversions as a small format interpreter.
  - `Options` (`options.dfy`).
  - `Scenarios` (`scenarios.dfy`): whole hands and sessions worked through.

Inputs the programs take from the outside world are parameters:

- `rand()` results are a `seq<nat>` of rolls, and `draw_card` folds each
  one onto 1..11. A roll list that runs out yields `None`. `rand()` never
  runs out, and `Engine.PlayHand` proves that 38 rolls always suffice for a
  hand.
- Each `recv` on the server is one element of a `seq<string>` of replies.
  A list that runs out is `recv() <= 0`.
- The rankings file is an `Option<string>`, where `None` means the file
  could not be opened.
- The user's typed line is a string.

Integer conversions follow glibc on a 64-bit target. `strtol` saturates at
the `long` bounds, and the cast to `int` keeps the low 32 bits
(`CText.ToInt32`).

In these places the code behaves in ways a reader may not expect, and
the model follows the code:

- At the draw prompt, the server accepts any reply that starts with "no"
  or "yes", not only the exact words.
- Reaching exactly 21 ends only the player's turn. The dealer still plays,
  and a dealer finishing on 21 makes it a tie.
- A hand whose client went away mid-hand still goes to the dealer, and
  its result is recorded.
- A rankings file that cannot be opened leaves the in-memory table as it
  was, rather than emptying it.
- The table is not reloaded before a hand is recorded. A fresh session
  that plays first therefore overwrites the file with its own records
  (`Session.PlayFirstDropsFileRecords`).
- The player's name is the received bytes up to the first NUL, untrimmed.

## Model

| member | source | states |
|---|---|---|
| Engine.DrawCard | server_blackjack.c:154-156 | every roll gives a card in 1..11; rolls 0..10 give cards 1..11 in order |
| Engine.DrawCardOnto | server_blackjack.c:154-156 | every card value 1..11 is the card of some roll |
| Engine.AceValue | server_blackjack.c:267-276 | an ace counts 11 exactly when the reply reads as 11 under `atoi`, and 1 otherwise, so an unreadable reply defaults to 1 |
| Engine.Draw | server_blackjack.c:254-297 | a "yes" draws exactly one card when one is left. A card other than 1 or 11 adds its face value and sends one message, never the value question. A 1 or 11 always sends the value question and adds the value the next reply chooses. The "defaulting to 1" notice follows exactly when that reply reads as neither 1 nor 11. No next reply ends the turn uncounted. Over 21 busts and exactly 21 stops the turn. |
| Engine.PlayerStep | server_blackjack.c:237-302 | a reply starting "no" ends the turn with the score and rolls unchanged. Otherwise one starting "yes" draws exactly one card. Any other reply sends "Invalid input" and changes nothing else. A drawn 1 or 11 puts the value question right after the draw prompt. Each pass raises the score by at most 11. |
| Engine.PlayerTurn | server_blackjack.c:237-302 | the turn ends between the start score and 31. It busts exactly when over 21 and stops on 21 exactly at 21. It uses the rolls from the front, at most `21 - score` of them, so that many always suffice. |
| Engine.DealerTurn | server_blackjack.c:305-310 | the dealer's final score is the start plus the cards of the first `k` rolls, where the leftover rolls are exactly `rolls[k..]`. Each of those cards was drawn while the running score was under 17, and each is announced. The score ends on 17..27. At most `17 - start` rolls are used, so it always terminates when they are available. |
| Engine.Finish | server_blackjack.c:304-328 | over 21 the hand is lost and the dealer keeps the face-up card, with no draws. Otherwise the dealer's score is the face-up card plus the cards of `drawn`, each drawn while under 17. `drawn` is the front of the rolls the player's turn left, and `drawn` followed by the unused rolls is exactly those rolls. The score ends on 17..27, and the comparison decides. |
| Engine.Resolve | server_blackjack.c:312-328 | a dealer over 21 loses. Otherwise the result is the sign of player minus dealer. |
| Engine.PlayHand | server_blackjack.c:226-334 | the result is one of -1/0/1. Busting loses, and the dealer keeps only the face-up card. Otherwise the dealer plays to 17..27 and the comparison decides. Exactly 21 wins unless the dealer also ends on 21. The dealer's score is the face-up card plus the cards of the rolls in `drawn`, each drawn while under 17. Those rolls are the front of the rolls the player's turn left, so `drawn` followed by the unused rolls is exactly what the player's turn left. There are none after a bust. A hand uses at most 38 rolls and always completes with 38. |
| Messages.Wire | server_blackjack.c:244-259 | the ace prompt goes out as exactly the 1024-byte buffer: the prompt, its NUL, then the rest of the reply received before it, or NULs past that reply. Every other message goes out as its text alone. Every message's text reads back whole as a C string. |
| Messages.RenderEndsLine | server_blackjack.c:217-376 | every message the server formats is non-empty and ends in a newline, except the name prompt and the menu, which end after their question (`"Enter your name: "`, `"> "`) so that the answer is typed on the same line |
| CText.Atoi | server_blackjack.c:267 | `atoi` gives an `int`: 0 when no digits follow the white space and sign, and the number itself when it fits |
| CText.ScanFormat | server_blackjack.c:183 | `fscanf` converts at most as many fields as the format names. Each converted field consumes input. |
| CText.ScanFormatted | server_blackjack.c:183 | `%d` reads back what `printf("%d")` printed, whatever white space precedes it |
| CText.ScanWordOf | server_blackjack.c:183 | `%49s` reads back a word of at most 49 characters that is followed by white space |
| Rankings.Find | server_blackjack.c:196-204 | finds the first record with exactly that name, or reports that no record has it |
| Rankings.Truncate | server_blackjack.c:207 | `strncpy` keeps a prefix of at most 49 characters |
| Rankings.Update | server_blackjack.c:194-213 | a known name moves only the counter the result selects, with length and other records unchanged. An unseen name is appended, truncated, with exactly its one counter at 1 when there is room. A full table is unchanged. |
| Rankings.UpdateKeepsDistinct | server_blackjack.c:194-213 | with names that fit the buffer, an update never creates a second record for a name |
| Rankings.UpdateAddsOneGame | server_blackjack.c:194-213 | every recorded hand adds exactly one game to the table's total, unless the name is new and the table full |
| Rankings.UpdateThenFind | server_blackjack.c:194-213 | after an update the name finds its record with the result counted, and every other name finds what it found before |
| Rankings.ScanLine | server_blackjack.c:166-183 | one saved `"%s %d %d %d\n"` line scans back with `"%49s %d %d %d"` to its record |
| Rankings.ParseRecords | server_blackjack.c:182-188 | the reading loop never reads more records than it has room for |
| Rankings.Load | server_blackjack.c:173-192 | a file that cannot be opened leaves the table untouched. An opened file replaces it with at most ten records. |
| Rankings.ParseSavedFits | server_blackjack.c:182-188 | a saved table that fits the room reads back whole, and reading continues into what follows with the room left |
| Rankings.ParseSavedCut | server_blackjack.c:182-188 | a saved table longer than the room is read as its first `room` records |
| Rankings.LoadSaveRoundTrip | server_blackjack.c:158-192 | loading a saved table gives it back. This holds for up to ten records with non-empty, white-space-free names of at most 49 bytes and `int` counters. |
| Rankings.Save | server_blackjack.c:158-171 | the file of an empty table is empty, and the file of any other table ends with a newline, the end of its last record's line |
| Rankings.SaveAppend | server_blackjack.c:165-167 | the loop writes one line per record in table order, so the file of `t + u` is the file of `t` followed by the file of `u` |
| Rankings.LoadKeepsFirstTen | server_blackjack.c:182-188 | a file of more than ten records loads as its first ten |
| Rankings.LoadStopsAtMismatch | server_blackjack.c:182-188 | reading stops at the first record that does not match all four fields, and keeps everything before it |
| Rankings.Display | server_blackjack.c:215-224 | the header, then one line per record in table order with that record's name and counters |
| Rankings.DisplayAfterUpdate | server_blackjack.c:194-224 | after a hand, the listing differs in one line only: the player's own line with the new counters, or a new last line for a new player |
| Session.MenuChoice | server_blackjack.c:366-378 | option 1, 2 or 3 exactly when the reply's first byte is '1', '2' or '3'. Anything else is invalid. |
| Session.MenuStep | server_blackjack.c:351-379 | every pass sends the menu. No reply ends the loop unchanged. "3" says goodbye and ends. Anything else is rejected with nothing changed. "2" reloads the table from the file and lists it. "1" plays a hand on the following replies and records and saves its result. |
| Session.Record | server_blackjack.c:331-332 | after a hand the table is the update of the player's counters by the result, and the file is rewritten at once. For a table of at most ten records that the format can carry, loading that file gives back exactly the updated table. |
| Session.MenuLoop | server_blackjack.c:351-381 | however the loop ends, the file holds the final table. The table stays within ten records. Enough rolls for a hand per reply always complete the session. |
| Session.HandleClient | server_blackjack.c:336-384 | no name closes the connection with no save. Otherwise the menu carries the name and the session ends with the file equal to the final table. |
| Session.NextLoadSeesFinalTable | server_blackjack.c:381 | after a session, loading the file gives back the session's final table, for tables the format can carry |
| Session.PlayFirstDropsFileRecords | server_blackjack.c:331-332 | a fresh process that plays first rewrites the file with the one new record, whatever the file held |
| Client.Typed | client_blackjack.c:149-151 | the line sent is a prefix of what was typed, of at most 1023 characters, cut at the first newline or NUL |
| Client.ReplyTo | client_blackjack.c:148-170 | the draw test comes first. A draw prompt sends the line only if it is exactly "yes" or "no" and refuses it otherwise. An ace prompt forwards the line unchecked. Any other message gets no answer. |
| Client.DrawPromptAnswer | client_blackjack.c:148-161 | at a draw prompt, typing "yes" or "no" sends it, and any other single line is refused |
| Client.ChooseFamily | client_blackjack.c:196-202 | IPv6 exactly when the input converts as `%d` to a value whose `int` is 2, so input that does not convert selects IPv4 |
| Client.ChooseFamilyOf | client_blackjack.c:196-202 | a typed `int` selects IPv6 exactly when it is 2. Among larger numbers, exactly those congruent to 2 modulo 2^32 within the 64-bit range do. |
| Protocol.QuestionsArePatterns | client_blackjack.c:148-162 | the server's draw and ace questions are character for character the client's match texts |
| Protocol.DrawPromptMatches | server_blackjack.c:238 | the draw prompt as received contains the client's draw pattern |
| Protocol.AcePromptMatches | server_blackjack.c:258-259 | the ace prompt as received, whatever its buffer held before, contains the ace pattern and not the draw pattern |
| Protocol.AcePromptCarriesReply | server_blackjack.c:244-259 | for a 1 or 11 the ace prompt is exactly 1024 bytes and reads as the prompt. Beyond its NUL come the bytes of the preceding reply that lie past the prompt's length. |
| Protocol.DrawAnswerUnderstood | server_blackjack.c:250-253 | the client always reacts to a draw prompt. What it sends the server reads as yes or no as meant, never as invalid input. |
| Protocol.AceAnswerForwarded | client_blackjack.c:162-170 | at an ace prompt the client forwards the typed line unchecked. The server's draw of that ace then adds 11 to the score exactly when the forwarded line reads as 11, adds 1 otherwise, and moves on to the next reply |
| Protocol.NameCanPoseAsDrawPrompt | server_blackjack.c:351-358 | a name containing the draw pattern makes the menu look like a draw prompt, and the client then refuses to send "1" |
| Scenarios.AliceWinsFirstHand | server_blackjack.c:206-212 | a new player who wins one hand on an empty server leaves exactly the record `Alice 1 0 0` |
| Scenarios.BobLosesOneHand | server_blackjack.c:196-204 | `Bob 2 1 0` losing a hand becomes `Bob 2 1 1` |
| Scenarios.StandOnZero | server_blackjack.c:250-328 | "no" at the first prompt stands on 0 and the dealer still plays to 17 or more. The player loses unless the dealer busts. |

## Left out

- Multicast discovery (`get_local_ip`, `multicast_server_ip`, `receive_multicast`): sockets, interface listing and timers only.
- The accept loop, `fork` per connection, `daemon_init`, signals, `syslog` and `printf` logging: process management with no decisions in it. Each forked child starts from the parent's never-loaded empty table, which callers of `Session.HandleClient` pass in as `Store([], file)`.
- `srand(time(0))` and `rand()`: replaced by the roll sequence.
- Actual `send`, `recv` and `select` calls, TCP coalescing and the 30-second `select` timeout. Each reply is one discrete string, and `send` never fails.
- The client's second branch (client_blackjack.c:173-181), which forwards any typed line when standard input is ready: whether it runs depends on `select` timing. It sends `Client.Typed` of the line, unchecked.
- `fgets` leaving the rest of a line longer than 1023 characters for the next read.
- File open and write errors other than the absent file: persistence is an `Option<string>`, and saving always succeeds.
- Session.HandleClient: requires the received name to be at most 49 bytes before its first NUL. With a full 50-byte `recv` the C buffer is not terminated, and the program's behaviour is undefined.
- Rankings.Update: counters are unbounded integers. The C `int` increment past 2^31-1 is undefined behaviour and is not modelled.
- Rankings.LoadSaveRoundTrip: stated for well-formed tables only. Names with white space or longer than 49 bytes do not survive the `%49s` reading, and `Rankings.LoadStopsAtMismatch` describes where reading stops.
- Engine.AceValue: the reply is read by `atoi` up to its first NUL. A full 1024-byte `recv` of digits or white space with no NUL is read past the buffer in C, and is not modelled.
- Messages.Wire: `snprintf` cutting a text at 1023 characters is not modelled. Every text the programs format is far shorter, with numbers of at most 11 characters and names of at most 49. An ace prompt that would not fit the buffer is sent as its text alone.
- Client.ReplyTo: a received message is read up to its first NUL. A full 1024-byte `recv` with no NUL is read past the buffer by `strstr` in C, and is not modelled.
- The server's stale slots beyond `player_count` and the partial record a failed `fscanf` writes into them: they are never read before being overwritten.

=== FILE: client.dfy ===
/** The client's side of the protocol (client_blackjack.c): how a message
    from the server and the line the user types decide what goes back
    (lines 148-170), and the address family chosen at start-up
    (lines 196-202). */
module Client {
  import opened CText
  import opened Messages

  /** The text whose presence marks a draw prompt (client_blackjack.c:148). */
  const DrawPattern: string := "Draw a card? (yes/no):"

  /** The text whose presence marks an ace prompt (client_blackjack.c:162). */
  const AcePattern: string := "Do you want it to be 1 or 11? (1/11):"

  /** At most `room` characters from the start of `s`, up to the first
      newline or NUL. */
  function Cut(s: string, room: nat): (r: string)
    ensures r <= s && |r| <= room
    ensures '\n' !in r && '\0' !in r
    ensures |r| < |s| && |r| < room ==> s[|r|] == '\n' || s[|r|] == '\0'
    decreases room
  {
    if room == 0 || |s| == 0 || s[0] == '\n' || s[0] == '\0' then []
    else [s[0]] + Cut(s[1..], room - 1)
  }

  /** The line as the client handles it: `fgets(buffer, MAXLINE, stdin)`
      keeps at most 1023 characters, `buffer[strcspn(buffer, "\n")] = 0`
      drops the newline, and `strcmp`/`strlen` stop at the first NUL.
      Input that has run out reads as the cleared buffer, the empty line. */
  function Typed(input: string): (r: string)
    ensures r <= input && |r| < MaxLine
    ensures '\n' !in r && '\0' !in r
    ensures |r| < |input| && |r| < MaxLine - 1 ==> input[|r|] == '\n' || input[|r|] == '\0'
  {
    Cut(input, MaxLine - 1)
  }

  /** A line without newline or NUL, shorter than the buffer, is typed as is
      when followed by a newline. */
  lemma {:induction false} CutLine(text: string, rest: string, room: nat)
    requires '\n' !in text && '\0' !in text && |text| <= room
    requires |rest| == 0 || rest[0] == '\n'
    ensures Cut(text + rest, room) == text
    decreases |text|
  {
    if |text| == 0 {
      assert text + rest == rest;
    } else {
      assert text[0] in text;
      assert (text + rest)[1..] == text[1..] + rest;
      CutLine(text[1..], rest, room - 1);
    }
  }

  /** What the socket branch of `play_game` does with one message. */
  datatype Action =
    | Send(text: string)  // the line goes to the server
    | Refuse              // an error is printed and nothing is sent
    | Ignore              // the message asks for nothing

  /** The decision at client_blackjack.c:148-170 for the bytes one `recv`
      stored, read as a C string by `strstr`, and the user's input. The
      draw test comes first. */
  function ReplyTo(received: string, input: string): (a: Action)
    ensures Contains(CStr(received), DrawPattern) ==>
      a == (if Typed(input) == "yes" || Typed(input) == "no" then Send(Typed(input)) else Refuse)
    ensures !Contains(CStr(received), DrawPattern) && Contains(CStr(received), AcePattern) ==>
      a == Send(Typed(input))
    ensures a == Ignore <==> !Contains(CStr(received), DrawPattern) && !Contains(CStr(received), AcePattern)
    ensures a.Send? ==> a.text <= input && '\n' !in a.text
  {
    var text := CStr(received);
    if Contains(text, DrawPattern) then
      var line := Typed(input);
      if line == "yes" || line == "no" then Send(line) else Refuse
    else if Contains(text, AcePattern) then
      Send(Typed(input))
    else
      Ignore
  }

  /** Typing exactly "yes" or "no" at a draw prompt sends it; anything else
      at a draw prompt is refused on the spot. */
  lemma {:induction false} DrawPromptAnswer(received: string, answer: string, rest: string)
    requires Contains(CStr(received), DrawPattern)
    requires |rest| == 0 || rest[0] == '\n'
    ensures answer in {"yes", "no"} ==> ReplyTo(received, answer + rest) == Send(answer)
    ensures answer !in {"yes", "no"} && '\n' !in answer && '\0' !in answer && |answer| < MaxLine ==>
      ReplyTo(received, answer + rest) == Refuse
  {
    if '\n' !in answer && '\0' !in answer && |answer| < MaxLine {
      CutLine(answer, rest, MaxLine - 1);
    }
  }

  /** The address families of client_blackjack.c:17-20. */
  datatype Family = IPv4 | IPv6

  /** `scanf("%d", &choice)` and `version = (choice == 2) ? IPV6 : IPV4`
      (client_blackjack.c:196-202); input that does not convert counts as
      choice 1. */
  function ChooseFamily(input: string): (f: Family)
    ensures ScanDecimal(input).None? ==> f == IPv4
    ensures f == IPv6 <==> ScanDecimal(input).Some? && ToInt32(ScanDecimal(input).value.0) == 2
  {
    var choice := match ScanDecimal(input) case None => 1 case Some((v, _)) => ToInt32(v);
    if choice == 2 then IPv6 else IPv4
  }

  /** A typed number selects IPv6 exactly when it lands on 2 in an `int`:
      2 itself, and every value of the 64-bit range congruent to 2 modulo
      2^32, which the narrowing wraps onto 2. Everything else is IPv4. */
  lemma {:induction false} ChooseFamilyOf(ws: string, n: int, rest: string)
    requires AllSpace(ws)
    requires |rest| == 0 || !IsDigit(rest[0])
    ensures ChooseFamily(ws + FormatInt(n) + rest) == IPv6 <==>
      LONG_MIN <= n <= LONG_MAX && (n - 2) % 0x1_0000_0000 == 0
    ensures INT_MIN <= n <= INT_MAX ==> (ChooseFamily(ws + FormatInt(n) + rest) == IPv6 <==> n == 2)
  {
    ScanFormatted(ws, n, rest);
    LandsOnTwo(n);
  }

  /** `ToInt32(v)` is 2 exactly for the 64-bit values congruent to 2. */
  lemma {:induction false} LandsOnTwo(v: int)
    ensures ToInt32(v) == 2 <==> LONG_MIN <= v <= LONG_MAX && (v - 2) % 0x1_0000_0000 == 0
  {
    var r := ToInt32(v);
    var s := Saturate64(v);
    var k := (r - s) / 0x1_0000_0000;
    assert r - s == k * 0x1_0000_0000;
    if LONG_MIN <= v <= LONG_MAX {
      assert s == v;
      if (v - 2) % 0x1_0000_0000 == 0 {
        var j := (v - 2) / 0x1_0000_0000;
        assert v - 2 == j * 0x1_0000_0000;
        assert r - 2 == (k + j) * 0x1_0000_0000;
      }
      if r == 2 {
        assert v - 2 == (-k) * 0x1_0000_0000;
      }
    } else {
      assert s == LONG_MIN || s == LONG_MAX;
      assert r - s == k * 0x1_0000_0000;
    }
  }
}

=== FILE: ctext.dfy ===
/** The C library text handling the programs rely on, over `string`
    (a byte per `char`): NUL-terminated buffers, `strstr`, `printf("%d")`,
    and the number and word conversions of `strtol`, `atoi`, `scanf("%d")`
    and `scanf("%49s")`. Integer conversions follow glibc on an LP64 target:
    `strtol` saturates at the 64-bit bounds and the cast to `int` wraps
    modulo 2^32. */
module CText {
  import opened Options

  const INT_MIN: int := -0x8000_0000
  const INT_MAX: int := 0x7FFF_FFFF
  const LONG_MIN: int := -0x8000_0000_0000_0000
  const LONG_MAX: int := 0x7FFF_FFFF_FFFF_FFFF

  /** `isspace` in the C locale. */
  predicate IsSpace(c: char)
  {
    c == ' ' || c == '\t' || c == '\n' || c == '\U{B}' || c == '\U{C}' || c == '\r'
  }

  predicate IsDigit(c: char)
  {
    '0' <= c <= '9'
  }

  predicate AllSpace(s: string)
  {
    forall i :: 0 <= i < |s| ==> IsSpace(s[i])
  }

  predicate AllDigits(s: string)
  {
    forall i :: 0 <= i < |s| ==> IsDigit(s[i])
  }

  /** A word in the sense of `%s`: non-empty and free of white space. */
  predicate IsWord(s: string)
  {
    |s| > 0 && forall i :: 0 <= i < |s| ==> !IsSpace(s[i])
  }

  /** The C string held by a NUL-terminated buffer: every byte before the
      first NUL. */
  function CStr(s: string): (r: string)
    ensures r <= s
    ensures '\0' !in r
    ensures |r| < |s| ==> s[|r|] == '\0'
    decreases |s|
  {
    if |s| == 0 || s[0] == '\0' then [] else [s[0]] + CStr(s[1..])
  }

  /** A NUL-free text followed by nothing or by a NUL is read back whole. */
  lemma {:induction false} CStrOfNulTail(text: string, tail: string)
    requires '\0' !in text
    requires |tail| == 0 || tail[0] == '\0'
    ensures CStr(text + tail) == text
    decreases |text|
  {
    if |text| > 0 {
      assert text[0] in text;
      assert (text + tail)[1..] == text[1..] + tail;
      CStrOfNulTail(text[1..], tail);
    } else {
      assert text + tail == tail;
    }
  }

  /** A NUL-free prefix passes through `CStr` untouched. */
  lemma {:induction false} CStrOfPrefix(text: string, tail: string)
    requires '\0' !in text
    ensures CStr(text + tail) == text + CStr(tail)
    decreases |text|
  {
    if |text| > 0 {
      assert text[0] in text;
      assert (text + tail)[1..] == text[1..] + tail;
      CStrOfPrefix(text[1..], tail);
      assert [text[0]] + (text[1..] + CStr(tail)) == text + CStr(tail);
    } else {
      assert text + tail == tail;
    }
  }

  /** `strstr(s, pat) != NULL`: `pat` occurs somewhere in `s`. */
  predicate Contains(s: string, pat: string)
    decreases |s|
  {
    pat <= s || (|s| > 0 && Contains(s[1..], pat))
  }

  /** A pattern occurs in any text built around it. */
  lemma {:induction false} ContainsInfix(a: string, pat: string, c: string)
    ensures Contains(a + pat + c, pat)
    decreases |a|
  {
    if |a| == 0 {
      assert a + pat + c == pat + c;
    } else {
      assert (a + pat + c)[1..] == a[1..] + pat + c;
      ContainsInfix(a[1..], pat, c);
    }
  }

  /** A pattern found in a part of a text is found in the text. */
  lemma {:induction false} ContainsWithin(a: string, b: string, c: string, pat: string)
    requires Contains(b, pat)
    ensures Contains(a + b + c, pat)
    decreases |a|, |b|
  {
    if |a| > 0 {
      assert (a + b + c)[1..] == a[1..] + b + c;
      ContainsWithin(a[1..], b, c, pat);
    } else if pat <= b {
      assert pat <= a + b + c;
    } else {
      assert (a + b + c)[1..] == [] + b[1..] + c;
      ContainsWithin([], b[1..], c, pat);
    }
  }

  /** A text that lacks some character of the pattern cannot contain it. */
  lemma {:induction false} ContainsKeepsChars(s: string, pat: string, c: char)
    requires Contains(s, pat)
    requires c in pat
    ensures c in s
    decreases |s|
  {
    if pat <= s {
      assert pat == s[..|pat|];
    } else {
      ContainsKeepsChars(s[1..], pat, c);
      assert s == [s[0]] + s[1..];
    }
  }

  function DigitChar(d: nat): (c: char)
    requires d < 10
    ensures IsDigit(c)
  {
    ('0' as int + d) as char
  }

  /** The value of a digit character; 0 for any other character. */
  function DigitValue(c: char): (d: nat)
    ensures d < 10
  {
    if IsDigit(c) then c as int - '0' as int else 0
  }

  lemma {:induction false} Assoc(a: string, b: string, c: string)
    ensures a + b + c == a + (b + c)
  {
  }

  /** The decimal digits of `n`, most significant first, without leading
      zeros. */
  function Digits(n: nat): (r: string)
    ensures 1 <= |r|
    decreases n
  {
    if n < 10 then [DigitChar(n)] else Digits(n / 10) + [DigitChar(n % 10)]
  }

  lemma {:induction false} DigitsAreDigits(n: nat)
    ensures AllDigits(Digits(n))
    decreases n
  {
    if n >= 10 {
      DigitsAreDigits(n / 10);
    }
  }

  /** The number a digit string denotes. */
  function DigitsValue(s: string): nat
    decreases |s|
  {
    if |s| == 0 then 0 else 10 * DigitsValue(s[..|s| - 1]) + DigitValue(s[|s| - 1])
  }

  lemma {:induction false} DigitsRoundTrip(n: nat)
    ensures DigitsValue(Digits(n)) == n
    decreases n
  {
    if n >= 10 {
      var ds := Digits(n / 10) + [DigitChar(n % 10)];
      assert ds[..|ds| - 1] == Digits(n / 10);
      DigitsRoundTrip(n / 10);
    }
  }

  /** `printf("%d", n)`: an optional minus sign, then the digits of |n|. */
  function FormatInt(n: int): (r: string)
    ensures 1 <= |r|
  {
    if n < 0 then "-" + Digits(-n) else Digits(n)
  }

  /** `printf("%d")` prints only digits and the minus sign. */
  lemma {:induction false} FormatIntChars(n: int)
    ensures forall c :: c in FormatInt(n) ==> IsDigit(c) || c == '-'
  {
    DigitsAreDigits(if n < 0 then -n else n);
  }

  /** The white space a conversion skips before it starts. */
  function SkipSpace(s: string): (r: string)
    ensures |r| <= |s|
    ensures |r| > 0 ==> !IsSpace(r[0])
    decreases |s|
  {
    if |s| > 0 && IsSpace(s[0]) then SkipSpace(s[1..]) else s
  }

  /** The longest run of digits at the start of `s`. */
  function DigitPrefix(s: string): (r: string)
    ensures |r| <= |s|
    decreases |s|
  {
    if |s| > 0 && IsDigit(s[0]) then [s[0]] + DigitPrefix(s[1..]) else []
  }

  /** The longest run of at most `width` non-space characters at the start
      of `s`. */
  function WordPrefix(s: string, width: nat): (r: string)
    ensures |r| <= |s| && |r| <= width
    ensures 0 < width && 0 < |s| && !IsSpace(s[0]) ==> 0 < |r|
    decreases width
  {
    if width == 0 || |s| == 0 || IsSpace(s[0]) then [] else [s[0]] + WordPrefix(s[1..], width - 1)
  }

  /** `scanf("%<width>s")`: white space, then at most `width` characters
      up to the next white space. `None` when only white space is left. */
  function ScanWord(s: string, width: nat): (r: Option<(string, string)>)
    requires width > 0
    ensures r.Some? ==> 0 < |r.value.0| <= width && |r.value.1| < |s|
  {
    var t := SkipSpace(s);
    if |t| == 0 then None
    else
      var w := WordPrefix(t, width);
      Some((w, t[|w|..]))
  }

  lemma {:induction false} WordPrefixOf(w: string, rest: string, width: nat)
    requires forall i :: 0 <= i < |w| ==> !IsSpace(w[i])
    requires |w| <= width
    requires |rest| == 0 || IsSpace(rest[0])
    ensures WordPrefix(w + rest, width) == w
    decreases |w|
  {
    if |w| > 0 {
      assert (w + rest)[1..] == w[1..] + rest;
      WordPrefixOf(w[1..], rest, width - 1);
    } else {
      assert w + rest == rest;
    }
  }

  /** Scanning a word back: a word of at most `width` characters, followed
      by white space or nothing, comes back whole. */
  lemma {:induction false} ScanWordOf(w: string, rest: string, width: nat)
    requires IsWord(w)
    requires |w| <= width
    requires |rest| == 0 || IsSpace(rest[0])
    ensures ScanWord(w + rest, width) == Some((w, rest))
  {
    SkipSpaceOf([], w + rest);
    assert [] + (w + rest) == w + rest;
    WordPrefixOf(w, rest, width);
    assert (w + rest)[|w|..] == rest;
  }

  /** The decimal conversion shared by `strtol`, `atoi` and `scanf("%d")`:
      white space, an optional sign, then every digit that follows. `None`
      when no digit follows the sign. The value is not yet narrowed to a C
      integer type; the remainder of the input comes back with it. */
  function ScanDecimal(s: string): (r: Option<(int, string)>)
    ensures r.Some? ==> |r.value.1| < |s|
  {
    var t := SkipSpace(s);
    if |t| > 0 && (t[0] == '-' || t[0] == '+') then Signed(t[0] == '-', ScanDigits(t[1..]))
    else ScanDigits(t)
  }

  /** Applies a scanned sign to a scanned magnitude. */
  function Signed(negative: bool, r: Option<(int, string)>): Option<(int, string)>
  {
    match r
    case None => None
    case Some((v, rest)) => Some((if negative then -v else v, rest))
  }

  /** One or more digits at the start of `u`, with their value. */
  function ScanDigits(u: string): (r: Option<(int, string)>)
    ensures r.Some? ==> |r.value.1| < |u|
    ensures r.Some? ==> r.value.0 >= 0
  {
    var ds := DigitPrefix(u);
    if |ds| == 0 then None else Some((DigitsValue(ds), u[|ds|..]))
  }

  lemma {:induction false} ScanDigitsOf(m: nat, rest: string)
    requires |rest| == 0 || !IsDigit(rest[0])
    ensures ScanDigits(Digits(m) + rest) == Some((m, rest))
  {
    var ds := Digits(m);
    DigitsAreDigits(m);
    DigitPrefixOf(ds, rest);
    DigitsRoundTrip(m);
    assert (ds + rest)[|ds|..] == rest;
  }

  lemma {:induction false} DigitPrefixOf(ds: string, rest: string)
    requires AllDigits(ds)
    requires |rest| == 0 || !IsDigit(rest[0])
    ensures DigitPrefix(ds + rest) == ds
    decreases |ds|
  {
    if |ds| > 0 {
      assert (ds + rest)[1..] == ds[1..] + rest;
      DigitPrefixOf(ds[1..], rest);
    }
  }

  lemma {:induction false} SkipSpaceOf(ws: string, rest: string)
    requires AllSpace(ws)
    requires |rest| == 0 || !IsSpace(rest[0])
    ensures SkipSpace(ws + rest) == rest
    decreases |ws|
  {
    if |ws| > 0 {
      assert (ws + rest)[1..] == ws[1..] + rest;
      SkipSpaceOf(ws[1..], rest);
    } else {
      assert ws + rest == rest;
    }
  }

  /** Scanning what `printf("%d")` printed gives the number back, whatever
      white space precedes it, provided no digit follows it. */
  lemma {:induction false} ScanFormatted(ws: string, n: int, rest: string)
    requires AllSpace(ws)
    requires |rest| == 0 || !IsDigit(rest[0])
    ensures ScanDecimal(ws + FormatInt(n) + rest) == Some((n, rest))
  {
    if n < 0 {
      assert FormatInt(n) == ['-'] + Digits(-n);
      Assoc(ws, ['-'] + Digits(-n), rest);
      Assoc(['-'], Digits(-n), rest);
      ScanSigned(ws, -n, rest);
    } else {
      Assoc(ws, Digits(n), rest);
      ScanUnsigned(ws, n, rest);
    }
  }

  lemma {:induction false} ScanUnsigned(ws: string, m: nat, rest: string)
    requires AllSpace(ws)
    requires |rest| == 0 || !IsDigit(rest[0])
    ensures ScanDecimal(ws + (Digits(m) + rest)) == Some((m, rest))
  {
    DigitsAreDigits(m);
    assert (Digits(m) + rest)[0] == Digits(m)[0];
    SkipSpaceOf(ws, Digits(m) + rest);
    ScanDigitsOf(m, rest);
  }

  lemma {:induction false} ScanSigned(ws: string, m: nat, rest: string)
    requires AllSpace(ws)
    requires |rest| == 0 || !IsDigit(rest[0])
    ensures ScanDecimal(ws + (['-'] + (Digits(m) + rest))) == Some((-(m as int), rest))
  {
    var t := ['-'] + (Digits(m) + rest);
    SkipSpaceOf(ws, t);
    assert t[1..] == Digits(m) + rest;
    ScanDigitsOf(m, rest);
    assert ScanDecimal(ws + t) == Signed(true, ScanDigits(t[1..]));
  }

  /** A field width of a `%s` conversion. */
  type Width = n: nat | 0 < n witness 1

  /** One conversion of a `scanf` format: `%<width>s` or `%d`. */
  datatype Conversion = Word(width: Width) | Decimal

  /** What one conversion stores: a word, or a number narrowed to `int`. */
  datatype Field = Text(text: string) | Number(value: int)

  /** One conversion applied to `s`: the field and the input after it, or
      `None` when the conversion fails. */
  function Convert(s: string, c: Conversion): (r: Option<(Field, string)>)
    ensures r.Some? ==> |r.value.1| < |s|
    ensures r.Some? ==> (r.value.0.Text? <==> c.Word?)
  {
    match c
    case Word(width) =>
      (match ScanWord(s, width)
       case None => None
       case Some((w, rest)) => Some((Text(w), rest)))
    case Decimal =>
      (match ScanDecimal(s)
       case None => None
       case Some((v, rest)) => Some((Number(ToInt32(v)), rest)))
  }

  /** `scanf` with a format of conversions separated by white space: the
      fields converted before the first conversion that fails, and the
      input left after the last one that succeeded. The length of the
      field list is `scanf`'s return value. */
  function ScanFormat(s: string, fmt: seq<Conversion>): (r: (seq<Field>, string))
    ensures |r.0| <= |fmt|
    ensures |r.1| <= |s|
    ensures |r.0| > 0 ==> |r.1| < |s|
    decreases |fmt|
  {
    if |fmt| == 0 then ([], s)
    else
      match Convert(s, fmt[0])
      case None => ([], s)
      case Some((f, rest)) =>
        var (fs, after) := ScanFormat(rest, fmt[1..]);
        ([f] + fs, after)
  }

  /** A conversion that succeeds in front of the rest of the format. */
  lemma {:induction false} ScanFormatStep(s: string, fmt: seq<Conversion>, f: Field, rest: string, fs: seq<Field>, after: string)
    requires 0 < |fmt|
    requires Convert(s, fmt[0]) == Some((f, rest))
    requires ScanFormat(rest, fmt[1..]) == (fs, after)
    ensures ScanFormat(s, fmt) == ([f] + fs, after)
  {
  }

  /** A printed `int` comes back whole from a `%d` conversion. */
  lemma {:induction false} ConvertDecimal(s: string, v: int, rest: string)
    requires INT_MIN <= v <= INT_MAX
    requires ScanDecimal(s) == Some((v, rest))
    ensures Convert(s, Decimal) == Some((Number(v), rest))
  {
    ToInt32Fits(v);
  }

  /** A leading white-space character is skipped like any other. */
  lemma {:induction false} SkipSpaceCons(c: char, s: string)
    requires IsSpace(c)
    ensures SkipSpace([c] + s) == SkipSpace(s)
  {
    assert ([c] + s)[1..] == s;
  }

  /** `%s` reads the same word from two inputs that agree after their
      leading white space. */
  lemma {:induction false} ScanWordSame(a: string, b: string, width: nat)
    requires 0 < width
    requires SkipSpace(a) == SkipSpace(b)
    ensures ScanWord(a, width) == ScanWord(b, width)
  {
  }

  /** `strtol`'s saturation at the bounds of a 64-bit `long`. */
  function Saturate64(v: int): (r: int)
    ensures LONG_MIN <= r <= LONG_MAX
    ensures LONG_MIN <= v <= LONG_MAX ==> r == v
    ensures v < LONG_MIN ==> r == LONG_MIN
    ensures v > LONG_MAX ==> r == LONG_MAX
  {
    if v < LONG_MIN then LONG_MIN else if v > LONG_MAX then LONG_MAX else v
  }

  /** A scanned number as it lands in a C `int`: saturated to `long` by
      `strtol`, then cast to `int`, which keeps the low 32 bits. */
  function ToInt32(v: int): (r: int)
    ensures INT_MIN <= r <= INT_MAX
    ensures (r - Saturate64(v)) % 0x1_0000_0000 == 0
  {
    (Saturate64(v) - INT_MIN) % 0x1_0000_0000 + INT_MIN
  }

  /** Numbers that fit an `int` survive the narrowing unchanged. */
  lemma {:induction false} ToInt32Fits(v: int)
    requires INT_MIN <= v <= INT_MAX
    ensures ToInt32(v) == v
  {
  }

  /** `atoi(s)`: the scanned number narrowed to `int`, or 0 when `s` does
      not start (after white space and a sign) with a digit. */
  function Atoi(s: string): (r: int)
    ensures INT_MIN <= r <= INT_MAX
    ensures ScanDecimal(s).None? ==> r == 0
    ensures ScanDecimal(s).Some? && INT_MIN <= ScanDecimal(s).value.0 <= INT_MAX ==> r == ScanDecimal(s).value.0
  {
    match ScanDecimal(s)
    case None => 0
    case Some((v, _)) => ToInt32(v)
  }
}

=== FILE: engine.dfy ===
/** One hand of the game as `handle_game` plays it (server_blackjack.c:226-334),
    as a pure function of the `rand()` results it will use and the client
    replies it will read. A reply list that runs out is the `recv() <= 0`
    break; a roll list that runs out has no counterpart in the program
    (`rand()` never runs dry) and yields `None`. */
module Engine {
  import opened Options
  import opened CText
  import opened Messages

  /** `draw_card()`: a `rand()` result folded onto 1..11. The first eleven
      results already give every card, in order. */
  function DrawCard(roll: nat): (card: int)
    ensures 1 <= card <= 11
    ensures roll < 11 ==> card == roll + 1
  {
    roll % 11 + 1
  }

  /** Every card value is some roll's card. */
  lemma {:induction false} DrawCardOnto(card: int)
    requires 1 <= card <= 11
    ensures exists roll: nat :: DrawCard(roll) == card
  {
    assert DrawCard(card - 1) == card;
  }

  /** The points the cards drawn with `rolls` add up to, in draw order. */
  function CardSum(rolls: seq<nat>): (s: int)
    ensures |rolls| <= s <= 11 * |rolls|
  {
    if |rolls| == 0 then 0 else DrawCard(rolls[0]) + CardSum(rolls[1..])
  }

  /** How the player's turn ended. */
  datatype Path =
    | Stood         // answered "no" at the draw prompt
    | TwentyOne     // reached exactly 21
    | Busted        // went over 21
    | Disconnected  // the client stopped answering

  /** The player's loop at server_blackjack.c:237: running score, `rand()`
      results and replies still to come, and the messages sent so far. */
  datatype Play = Play(score: int, rolls: seq<nat>, replies: seq<string>, sent: seq<Msg>)

  /** The outcome of one pass through that loop. */
  datatype Step = Continue(next: Play) | Stop(next: Play, path: Path) | OutOfRolls

  /** `strncmp(buff, "no", 2) == 0`. */
  predicate SaysNo(reply: string)
  {
    "no" <= reply
  }

  /** `strncmp(buff, "yes", 3) == 0`. */
  predicate SaysYes(reply: string)
  {
    "yes" <= reply
  }

  /** The two card values that ask the player for a value. */
  predicate IsAce(card: int)
  {
    card == 1 || card == 11
  }

  /** What an ace counts for, given the answer to "1 or 11?": 11 only when
      the answer reads as 11 under `atoi`, 1 for "1" and for anything else. */
  function AceValue(answer: string): (v: int)
    ensures v == 1 || v == 11
    ensures v == 11 <==> Atoi(answer) == 11
  {
    var choice := Atoi(answer);
    if choice == 1 then 1 else if choice == 11 then 11 else 1
  }

  /** The messages after the ace prompt: a notice when the answer was
      neither 1 nor 11 (server_blackjack.c:272-276). */
  function AceNotice(answer: string): seq<Msg>
  {
    var choice := Atoi(answer);
    if choice == 1 || choice == 11 then [] else [InvalidChoice]
  }

  /** The end of a draw (server_blackjack.c:282-297): exactly 21 stops the
      turn, more than 21 busts, anything less goes round again. */
  function Count(score: int, card: int, rolls: seq<nat>, replies: seq<string>, sent: seq<Msg>): Step
  {
    if score == 21 then Stop(Play(score, rolls, replies, sent + [Blackjack(card, score)]), TwentyOne)
    else if score > 21 then Stop(Play(score, rolls, replies, sent + [Bust(card, score)]), Busted)
    else Continue(Play(score, rolls, replies, sent + [Drew(card, score)]))
  }

  /** The "yes" branch of one pass (server_blackjack.c:254-297): `sent`
      already holds the draw prompt, `yes` is the reply that asked for the
      card (still in the buffer), `replies` what follows it. */
  function Draw(score: int, rolls: seq<nat>, yes: string, replies: seq<string>, sent: seq<Msg>): (r: Step)
    requires score < 21
    ensures r.OutOfRolls? <==> |rolls| == 0
    // 1 or 11 always asks which value it takes, over the buffer holding `yes`
    ensures |rolls| > 0 && IsAce(DrawCard(rolls[0])) ==>
      sent + [AcePrompt(DrawCard(rolls[0]), yes)] <= r.next.sent
    // ... and an answer other than 1 or 11 is told it defaults to 1
    ensures |rolls| > 0 && IsAce(DrawCard(rolls[0])) && |replies| > 0 ==>
      |r.next.sent| > |sent| + 1
      && (r.next.sent[|sent| + 1] == InvalidChoice <==> Atoi(replies[0]) != 1 && Atoi(replies[0]) != 11)
    // any other card asks nothing: one message reports it
    ensures |rolls| > 0 && !IsAce(DrawCard(rolls[0])) ==>
      |r.next.sent| == |sent| + 1 && !r.next.sent[|sent|].AcePrompt? && r.next.sent[|sent|] != InvalidChoice
    ensures |rolls| > 0 ==> r.next.rolls == rolls[1..] && sent <= r.next.sent
    ensures |rolls| > 0 && !IsAce(DrawCard(rolls[0])) ==>
      r.next.score == score + DrawCard(rolls[0]) && r.next.replies == replies
    ensures |rolls| > 0 && IsAce(DrawCard(rolls[0])) && |replies| > 0 ==>
      r.next.score == score + AceValue(replies[0]) && r.next.replies == replies[1..]
    ensures |rolls| > 0 && IsAce(DrawCard(rolls[0])) && |replies| == 0 ==>
      r.Stop? && r.path == Disconnected && r.next.score == score && r.next.replies == []
    ensures r.Continue? ==> score < r.next.score < 21
    ensures r.Stop? ==> (r.path == Busted <==> r.next.score > 21)
    ensures r.Stop? ==> (r.path == TwentyOne <==> r.next.score == 21)
    ensures r.Stop? ==> r.path == Busted || r.path == TwentyOne || r.path == Disconnected
  {
    if |rolls| == 0 then OutOfRolls
    else
      var card := DrawCard(rolls[0]);
      if IsAce(card) then
        var asked := sent + [AcePrompt(card, yes)];
        if |replies| == 0 then Stop(Play(score, rolls[1..], [], asked), Disconnected)
        else Count(score + AceValue(replies[0]), card, rolls[1..], replies[1..], asked + AceNotice(replies[0]))
      else
        Count(score + card, card, rolls[1..], replies, sent)
  }

  /** One pass through the player's loop (server_blackjack.c:237-302). */
  function PlayerStep(p: Play): (r: Step)
    requires p.score < 21
    // every pass starts with the draw prompt
    ensures !r.OutOfRolls? ==> p.sent + [DrawPrompt(p.score)] <= r.next.sent
    // no reply: the turn ends where it stands
    ensures |p.replies| == 0 ==>
      r.Stop? && r.path == Disconnected && r.next.score == p.score && r.next.rolls == p.rolls
    // "no" first: the turn ends, score unchanged, no card drawn
    ensures |p.replies| > 0 && SaysNo(p.replies[0]) ==>
      r.Stop? && r.path == Stood && r.next.score == p.score
      && r.next.rolls == p.rolls && r.next.replies == p.replies[1..]
    // neither "no" nor "yes": rejected, nothing else changes
    ensures |p.replies| > 0 && !SaysNo(p.replies[0]) && !SaysYes(p.replies[0]) ==>
      r == Continue(Play(p.score, p.rolls, p.replies[1..], p.sent + [DrawPrompt(p.score)] + [InvalidInput]))
    // "yes": exactly one card is drawn, when there is one to draw
    ensures |p.replies| > 0 && !SaysNo(p.replies[0]) && SaysYes(p.replies[0]) ==>
      (r.OutOfRolls? <==> |p.rolls| == 0) && (|p.rolls| > 0 ==> r.next.rolls == p.rolls[1..])
    // a card other than 1 or 11 counts at face value
    ensures (|p.replies| > 0 && !SaysNo(p.replies[0]) && SaysYes(p.replies[0]) && |p.rolls| > 0
             && !IsAce(DrawCard(p.rolls[0]))) ==>
      r.next.score == p.score + DrawCard(p.rolls[0]) && r.next.replies == p.replies[1..]
    // 1 or 11 is followed by the question which value it takes
    ensures (|p.replies| > 0 && !SaysNo(p.replies[0]) && SaysYes(p.replies[0]) && |p.rolls| > 0
             && IsAce(DrawCard(p.rolls[0]))) ==>
      p.sent + [DrawPrompt(p.score), AcePrompt(DrawCard(p.rolls[0]), p.replies[0])] <= r.next.sent
    // 1 or 11 counts as the second reply chooses
    ensures (|p.replies| > 1 && !SaysNo(p.replies[0]) && SaysYes(p.replies[0]) && |p.rolls| > 0
             && IsAce(DrawCard(p.rolls[0]))) ==>
      r.next.score == p.score + AceValue(p.replies[1]) && r.next.replies == p.replies[2..]
    // ... and no second reply ends the turn without counting the card
    ensures (|p.replies| == 1 && !SaysNo(p.replies[0]) && SaysYes(p.replies[0]) && |p.rolls| > 0
             && IsAce(DrawCard(p.rolls[0]))) ==>
      r.Stop? && r.path == Disconnected && r.next.score == p.score && r.next.replies == []
    // how a pass ends is decided by the new score alone
    ensures !r.OutOfRolls? ==> (r.Stop? && r.path == Busted <==> r.next.score > 21)
    ensures !r.OutOfRolls? ==> (r.Stop? && r.path == TwentyOne <==> r.next.score == 21)
    ensures !r.OutOfRolls? ==> p.score <= r.next.score < p.score + 12
    // a drawn card raises the score by at least one unless the turn ends
    ensures !r.OutOfRolls? ==> |r.next.rolls| <= |p.rolls| <= |r.next.rolls| + 1
    ensures !r.OutOfRolls? ==> Leaves(p.rolls, r.next.rolls)
    ensures r.Continue? ==> |p.rolls| - |r.next.rolls| <= r.next.score - p.score
    ensures r.Continue? ==> |r.next.replies| < |p.replies|
    ensures !r.OutOfRolls? ==> |r.next.replies| <= |p.replies|
  {
    var sent := p.sent + [DrawPrompt(p.score)];
    if |p.replies| == 0 then Stop(p.(sent := sent), Disconnected)
    else
      var reply := p.replies[0];
      var replies := p.replies[1..];
      if SaysNo(reply) then
        Stop(Play(p.score, p.rolls, replies, sent + [FinalScore(p.score)]), Stood)
      else if SaysYes(reply) then
        Draw(p.score, p.rolls, reply, replies, sent)
      else
        Continue(Play(p.score, p.rolls, replies, sent + [InvalidInput]))
  }

  /** The whole player's turn: passes until one stops. At most 21 rolls are
      used (every counted card adds at least one), so a turn starting at
      `score` never runs out with `21 - score` rolls in hand. */
  function PlayerTurn(p: Play): (r: Option<(Play, Path)>)
    requires p.score < 21
    ensures r.Some? ==> p.score <= r.value.0.score < 32
    ensures r.Some? ==> (r.value.1 == Busted <==> r.value.0.score > 21)
    ensures r.Some? ==> (r.value.1 == TwentyOne <==> r.value.0.score == 21)
    ensures r.Some? && r.value.1 == Disconnected ==> |r.value.0.replies| == 0
    ensures r.Some? ==> |r.value.0.replies| <= |p.replies|
    ensures r.Some? ==> |r.value.0.rolls| <= |p.rolls| && |p.rolls| - |r.value.0.rolls| <= 21 - p.score
    // rolls are used from the front
    ensures r.Some? ==> Leaves(p.rolls, r.value.0.rolls)
    ensures |p.rolls| >= 21 - p.score ==> r.Some?
    decreases |p.replies|
  {
    match PlayerStep(p)
    case OutOfRolls => None
    case Stop(q, path) => Some((q, path))
    case Continue(q) =>
      var r := PlayerTurn(q);
      if r.Some? then
        LeavesLeaves(p.rolls, q.rolls, r.value.0.rolls);
        r
      else r
  }

  /** `rest` is what is left of `rolls` once some have been used from the
      front. */
  predicate Leaves(rolls: seq<nat>, rest: seq<nat>)
  {
    |rest| <= |rolls| && rest == rolls[|rolls| - |rest|..]
  }

  /** Using rolls from the front twice is using them from the front once. */
  lemma {:induction false} LeavesLeaves(a: seq<nat>, b: seq<nat>, c: seq<nat>)
    requires Leaves(a, b) && Leaves(b, c)
    ensures Leaves(a, c)
  {
    assert a[|a| - |b|..][|b| - |c|..] == a[|a| - |c|..];
  }

  /** The dealer's loop (server_blackjack.c:305-310): draw while under 17.
      Every card is at least 1, so `17 - dealer` bounds the draws. */
  function DealerTurn(dealer: int, rolls: seq<nat>, sent: seq<Msg>): (r: Option<(int, seq<nat>, seq<Msg>)>)
    // the dealer's score is the start plus the first `k` cards, drawn one
    // by one while the running score was under 17, each announced
    ensures r.Some? ==>
      var k := |rolls| - |r.value.1|;
      Leaves(rolls, r.value.1) && r.value.0 == dealer + CardSum(rolls[..k])
      && DrewUnder17(dealer, rolls[..k])
      && |r.value.2| == |sent| + k && sent <= r.value.2
    ensures dealer >= 17 ==> r == Some((dealer, rolls, sent))
    ensures r.Some? ==> r.value.0 >= 17
    ensures r.Some? && dealer < 17 ==> r.value.0 <= 27
    ensures r.Some? ==> |r.value.1| <= |rolls| && |rolls| - |r.value.1| <= r.value.0 - dealer
    ensures r.Some? ==> |rolls| - |r.value.1| <= if dealer < 17 then 17 - dealer else 0
    ensures |rolls| >= 17 - dealer ==> r.Some?
    decreases 17 - dealer
  {
    if dealer >= 17 then Some((dealer, rolls, sent))
    else if |rolls| == 0 then None
    else
      var card := DrawCard(rolls[0]);
      var r := DealerTurn(dealer + card, rolls[1..], sent + [DealerDrew(card, dealer + card)]);
      if r.Some? then
        DealerStep(dealer, rolls, r.value.1);
        r
      else r
  }

  /** One card of the dealer's loop, in front of the cards drawn after it. */
  lemma {:induction false} DealerStep(dealer: int, rolls: seq<nat>, left: seq<nat>)
    requires dealer < 17 && 0 < |rolls| && Leaves(rolls[1..], left)
    requires DrewUnder17(dealer + DrawCard(rolls[0]), rolls[1..][..|rolls| - 1 - |left|])
    ensures Leaves(rolls, left)
    ensures CardSum(rolls[..|rolls| - |left|]) == DrawCard(rolls[0]) + CardSum(rolls[1..][..|rolls| - 1 - |left|])
    ensures DrewUnder17(dealer, rolls[..|rolls| - |left|])
  {
    LeavesLeaves(rolls, rolls[1..], left);
    var k := |rolls| - |left|;
    var drawn, later := rolls[..k], rolls[1..][..k - 1];
    assert drawn[1..] == later;
    forall j | 0 <= j < k ensures dealer + CardSum(drawn[..j]) < 17 {
      if j == 0 {
        assert drawn[..j] == [];
      } else {
        assert drawn[..j][1..] == later[..j - 1];
      }
    }
  }

  /** Starting on `start`, each card of `drawn` was drawn while the score
      was still under 17. */
  predicate DrewUnder17(start: int, drawn: seq<nat>)
  {
    forall j :: 0 <= j < |drawn| ==> start + CardSum(drawn[..j]) < 17
  }

  /** The sign of an integer: 1, 0 or -1. */
  function Sign(x: int): int
  {
    if x > 0 then 1 else if x < 0 then -1 else 0
  }

  /** The verdict once the dealer has played (server_blackjack.c:312-328):
      a dealer over 21 loses whatever the player holds; otherwise the higher
      score wins and equal scores tie. */
  function Resolve(player: int, dealer: int): (result: int)
    ensures dealer > 21 ==> result == 1
    ensures dealer <= 21 ==> result == Sign(player - dealer)
  {
    if dealer > 21 then 1
    else if dealer > player then -1
    else if dealer < player then 1
    else 0
  }

  /** The message announcing the verdict. */
  function Verdict(player: int, dealer: int): Msg
  {
    if dealer > 21 then DealerBust(player)
    else if dealer > player then DealerWins(dealer, player)
    else if dealer < player then PlayerWins(player, dealer)
    else Tie(player)
  }

  /** A finished hand: final scores, the rolls of the dealer's drawn cards,
      the recorded result (1 win, 0 draw, -1 loss), how the player's turn
      ended, the unused rolls and replies, and everything sent. */
  datatype Hand = Hand(player: int, dealer: int, drawn: seq<nat>, result: int, path: Path,
                       rolls: seq<nat>, replies: seq<string>, sent: seq<Msg>)

  /** Rolls that always suffice for one hand, and the most one hand uses:
      the face-up card, 21 for the player and 16 for the dealer. */
  const HandRolls: nat := 38

  /** The end of `handle_game` once the player's turn `q` is over: over 21
      the hand is lost at once; otherwise the dealer, who holds the card of
      `rolls[0]`, plays on the rolls the player left and the scores are
      compared. */
  function Finish(rolls: seq<nat>, q: Play, path: Path): (r: Option<Hand>)
    requires 0 < |rolls| && Leaves(rolls[1..], q.rolls)
    ensures q.score > 21 ==>
      r == Some(Hand(q.score, DrawCard(rolls[0]), [], -1, path, q.rolls, q.replies, q.sent))
    ensures |q.rolls| >= 16 ==> r.Some?
    ensures r.Some? ==>
      r.value.player == q.score && r.value.path == path && r.value.replies == q.replies
    ensures r.Some? && q.score <= 21 ==>
      17 <= r.value.dealer <= 27 && r.value.result == Resolve(q.score, r.value.dealer)
    ensures r.Some? ==> |r.value.rolls| <= |q.rolls| && |q.rolls| - |r.value.rolls| <= 16
    ensures r.Some? ==>
      |r.value.drawn + r.value.rolls| < |rolls| && Leaves(rolls, r.value.drawn + r.value.rolls)
      && r.value.dealer == DrawCard(rolls[0]) + CardSum(r.value.drawn)
    ensures r.Some? ==> DrewUnder17(DrawCard(rolls[0]), r.value.drawn)
    // the dealer draws the rolls the player's turn left, from the front
    ensures r.Some? ==> r.value.drawn + r.value.rolls == q.rolls
  {
    var up := DrawCard(rolls[0]);
    if q.score <= 21 then
      match DealerTurn(up, q.rolls, q.sent)
      case None => None
      case Some((dealer, left, sent)) =>
        var drawn := q.rolls[..|q.rolls| - |left|];
        DealerAfter(rolls, q.rolls, left, dealer);
        Some(Hand(q.score, dealer, drawn, Resolve(q.score, dealer), path, left, q.replies,
                  sent + [Verdict(q.score, dealer)]))
    else
      DealerAfter(rolls, q.rolls, q.rolls, up);
      Some(Hand(q.score, up, [], -1, path, q.rolls, q.replies, q.sent))
  }

  /** `handle_game`: face-up card, the player's turn, then the dealer's
      turn and the comparison whenever the player is not over 21 —
      including after exactly 21 and after the client went away. */
  function PlayHand(rolls: seq<nat>, replies: seq<string>): (r: Option<Hand>)
    ensures |rolls| >= HandRolls ==> r.Some?
    ensures r.Some? ==> r.value.result in {-1, 0, 1}
    ensures r.Some? ==> 0 <= r.value.player < 32
    ensures r.Some? ==> (r.value.path == Busted <==> r.value.player > 21)
    // over 21: a loss, and the dealer keeps the face-up card
    ensures r.Some? && r.value.path == Busted ==>
      |rolls| > 0 && r.value.result == -1 && r.value.dealer == DrawCard(rolls[0])
    // otherwise the dealer plays to 17..27 and the comparison decides
    ensures r.Some? && r.value.path != Busted ==>
      17 <= r.value.dealer <= 27 && r.value.result == Resolve(r.value.player, r.value.dealer)
    // exactly 21 wins unless the dealer also finishes on 21
    ensures r.Some? && r.value.path == TwentyOne ==>
      r.value.player == 21 && r.value.result == (if r.value.dealer == 21 then 0 else 1)
    ensures r.Some? && r.value.path == Disconnected ==> |r.value.replies| == 0
    ensures r.Some? ==> |r.value.replies| <= |replies| && |r.value.rolls| < |rolls|
    ensures r.Some? ==> |rolls| - |r.value.rolls| <= HandRolls
    // the dealer's score is the face-up card plus the cards of `drawn`,
    // the rolls just before the unused ones ...
    ensures r.Some? ==>
      |r.value.drawn + r.value.rolls| < |rolls| && Leaves(rolls, r.value.drawn + r.value.rolls)
      && r.value.dealer == DrawCard(rolls[0]) + CardSum(r.value.drawn)
    // ... each drawn while the dealer was under 17, and none after a bust
    ensures r.Some? ==> DrewUnder17(DrawCard(rolls[0]), r.value.drawn)
    ensures r.Some? && r.value.path == Busted ==> r.value.drawn == []
    // the dealer's rolls are exactly the front of those the player's turn left
    ensures r.Some? ==>
      var t := PlayerTurn(Play(0, rolls[1..], replies, [FaceUp(DrawCard(rolls[0]))]));
      t.Some? && r.value.drawn + r.value.rolls == t.value.0.rolls
  {
    if |rolls| == 0 then None
    else
      match PlayerTurn(Play(0, rolls[1..], replies, [FaceUp(DrawCard(rolls[0]))]))
      case None => None
      case Some((q, path)) => Finish(rolls, q, path)
  }

  /** The dealer's turn seen from the whole hand: the rolls it drew are
      those between the player's turn and the unused rolls. */
  lemma {:induction false} DealerAfter(rolls: seq<nat>, rest: seq<nat>, left: seq<nat>, dealer: int)
    requires 0 < |rolls| && Leaves(rolls[1..], rest)
    requires Leaves(rest, left)
    requires dealer == DrawCard(rolls[0]) + CardSum(rest[..|rest| - |left|])
    ensures var drawn := rest[..|rest| - |left|];
      |drawn + left| < |rolls| && Leaves(rolls, drawn + left)
      && dealer == DrawCard(rolls[0]) + CardSum(drawn)
  {
    LeavesLeaves(rolls, rolls[1..], rest);
    var drawn := rest[..|rest| - |left|];
    assert rest == drawn + left;
  }
}

=== FILE: messages.dfy ===
/** Every text the server sends, as a tagged value, with `Render` giving
    the exact `snprintf` text (server_blackjack.c) and `Wire` the bytes the
    `send` call puts on the stream. */
module Messages {
  import opened CText

  datatype Msg =
    | FaceUp(card: int)
    | DrawPrompt(score: int)
    | FinalScore(score: int)
    | AcePrompt(card: int, held: string)  // `held`: the reply still in the buffer
    | InvalidChoice
    | Blackjack(card: int, score: int)
    | Bust(card: int, score: int)
    | Drew(card: int, score: int)
    | InvalidInput
    | DealerDrew(card: int, score: int)
    | DealerBust(player: int)
    | DealerWins(dealer: int, player: int)
    | PlayerWins(player: int, dealer: int)
    | Tie(score: int)
    | NamePrompt
    | Menu(name: string)
    | RankingsHeader
    | RankLine(name: string, wins: int, draws: int, losses: int)
    | Goodbye(name: string)
    | InvalidOption

  /** The question ending the draw prompt (server_blackjack.c:238). */
  const DrawQuestion: string := "Draw a card? (yes/no):"

  /** The question ending the ace prompt (server_blackjack.c:258). */
  const AceQuestion: string := "Do you want it to be 1 or 11? (1/11):"

  /** The menu after the player's name (server_blackjack.c:353-357). */
  const MenuOptions: string :=
    "! Choose an option:\n" + "1. Play Blackjack\n" + "2. View Rankings\n" + "3. Exit\n" + "> "

  /** The exact text `snprintf` formats for a message
      (server_blackjack.c:217-376). Every message is a whole line except the
      two that wait for an answer on the same line: the name prompt and the
      menu, which ends in `"> "` (see `RenderEndsLine`). */
  function Render(m: Msg): string
  {
    match m
    case FaceUp(c) => "The dealer's face-up card is: " + FormatInt(c) + "\n"
    case DrawPrompt(s) => "Your current score: " + FormatInt(s) + ". " + DrawQuestion + " \n"
    case FinalScore(s) => "Final score: " + FormatInt(s) + ".\n"
    case AcePrompt(c, _) => "You drew a " + FormatInt(c) + ". " + AceQuestion + " \n"
    case InvalidChoice => "Invalid choice. Defaulting to 1. \n"
    case Blackjack(c, s) => "You drew " + FormatInt(c) + ". Your total score is " + FormatInt(s) + "! BLACKJACK!\n"
    case Bust(c, s) => "You drew " + FormatInt(c) + ". Your total score is " + FormatInt(s) + ". BUST!\n"
    case Drew(c, s) => "You drew " + FormatInt(c) + ". Your total score is now " + FormatInt(s) + ".\n"
    case InvalidInput => "Invalid input. Please type 'yes' or 'no'.\n"
    case DealerDrew(c, s) => "The dealer drew a " + FormatInt(c) + ". Dealer's score: " + FormatInt(s) + ".\n"
    case DealerBust(p) => "Dealer BUST! You win with a score of " + FormatInt(p) + "!\n"
    case DealerWins(d, p) => "Dealer wins with a score of " + FormatInt(d) + " against your " + FormatInt(p) + ".\n"
    case PlayerWins(p, d) => "You win with a score of " + FormatInt(p) + " against the dealer's " + FormatInt(d) + ".\n"
    case Tie(s) => "It's a tie! " + "Both you and the dealer have a score of " + FormatInt(s) + ".\n"
    case NamePrompt => "Enter your name: "
    case Menu(n) => "Welcome, " + n + MenuOptions
    case RankingsHeader => "Current Rankings:\n"
    case RankLine(n, w, d, l) => n + " - W: " + FormatInt(w) + ", D: " + FormatInt(d) + ", L: " + FormatInt(l) + "\n"
    case Goodbye(n) => "Goodbye, " + n + "!\n"
    case InvalidOption => "Invalid option. Please try again.\n"
  }

  /** Every message ends in a newline except the name prompt and the menu,
      which leave the cursor after the question. */
  lemma {:induction false} RenderEndsLine(m: Msg)
    ensures |Render(m)| > 0
    ensures Render(m)[|Render(m)| - 1] == '\n' <==> !(m.NamePrompt? || m.Menu?)
  {
    if m.FaceUp? || m.DrawPrompt? || m.FinalScore? || m.AcePrompt? || m.InvalidChoice? {
      PromptsEndLine(m);
    } else if m.Blackjack? || m.Bust? || m.Drew? || m.InvalidInput? {
      DrawsEndLine(m);
    } else if m.DealerDrew? || m.DealerBust? || m.DealerWins? || m.PlayerWins? || m.Tie? {
      DealerEndsLine(m);
    } else {
      SessionEndsLine(m);
    }
  }

  /** `RenderEndsLine` for the player's prompts. */
  lemma {:induction false} PromptsEndLine(m: Msg)
    requires m.FaceUp? || m.DrawPrompt? || m.FinalScore? || m.AcePrompt? || m.InvalidChoice?
    ensures |Render(m)| > 0 && Render(m)[|Render(m)| - 1] == '\n'
  {
    match m
    case FaceUp(c) => EndsWith("The dealer's face-up card is: " + FormatInt(c), "\n");
    case DrawPrompt(s) => EndsWith("Your current score: " + FormatInt(s) + ". " + DrawQuestion, " \n");
    case FinalScore(s) => EndsWith("Final score: " + FormatInt(s), ".\n");
    case AcePrompt(c, _) => EndsWith("You drew a " + FormatInt(c) + ". " + AceQuestion, " \n");
    case InvalidChoice =>
  }

  /** `RenderEndsLine` for the reports of the player's draws. */
  lemma {:induction false} DrawsEndLine(m: Msg)
    requires m.Blackjack? || m.Bust? || m.Drew? || m.InvalidInput?
    ensures |Render(m)| > 0 && Render(m)[|Render(m)| - 1] == '\n'
  {
    match m
    case Blackjack(c, s) =>
      EndsWith("You drew " + FormatInt(c) + ". Your total score is " + FormatInt(s), "! BLACKJACK!\n");
    case Bust(c, s) =>
      EndsWith("You drew " + FormatInt(c) + ". Your total score is " + FormatInt(s), ". BUST!\n");
    case Drew(c, s) =>
      EndsWith("You drew " + FormatInt(c) + ". Your total score is now " + FormatInt(s), ".\n");
    case InvalidInput =>
  }

  /** `RenderEndsLine` for the dealer's draws and the verdicts. */
  lemma {:induction false} DealerEndsLine(m: Msg)
    requires m.DealerDrew? || m.DealerBust? || m.DealerWins? || m.PlayerWins? || m.Tie?
    ensures |Render(m)| > 0 && Render(m)[|Render(m)| - 1] == '\n'
  {
    match m
    case DealerDrew(c, s) =>
      EndsWith("The dealer drew a " + FormatInt(c) + ". Dealer's score: " + FormatInt(s), ".\n");
    case DealerBust(p) => EndsWith("Dealer BUST! You win with a score of " + FormatInt(p), "!\n");
    case DealerWins(d, p) =>
      EndsWith("Dealer wins with a score of " + FormatInt(d) + " against your " + FormatInt(p), ".\n");
    case PlayerWins(p, d) =>
      EndsWith("You win with a score of " + FormatInt(p) + " against the dealer's " + FormatInt(d), ".\n");
    case Tie(s) => EndsWith("It's a tie! " + "Both you and the dealer have a score of " + FormatInt(s), ".\n");
  }

  /** `RenderEndsLine` for the name prompt, the menu and what it answers. */
  lemma {:induction false} SessionEndsLine(m: Msg)
    requires m.NamePrompt? || m.Menu? || m.RankingsHeader? || m.RankLine? || m.Goodbye? || m.InvalidOption?
    ensures |Render(m)| > 0
    ensures Render(m)[|Render(m)| - 1] == '\n' <==> !(m.NamePrompt? || m.Menu?)
  {
    match m
    case NamePrompt =>
    case Menu(n) => EndsWith("Welcome, " + n, MenuOptions);
    case RankingsHeader =>
    case RankLine(n, w, d, l) =>
      EndsWith(n + " - W: " + FormatInt(w) + ", D: " + FormatInt(d) + ", L: " + FormatInt(l), "\n");
    case Goodbye(n) => EndsWith("Goodbye, " + n, "!\n");
    case InvalidOption =>
  }

  /** The last byte of `a + b` is the last byte of `b`. */
  lemma {:induction false} EndsWith(a: string, b: string)
    requires |b| > 0
    ensures (a + b)[|a + b| - 1] == b[|b| - 1]
  {
  }

  /** Size of the server's message buffer (MAXLINE). */
  const MaxLine: nat := 1024

  /** `text` followed by NULs up to `width` bytes. */
  function Pad(text: string, width: nat): (r: string)
    ensures |r| == if |text| < width then width else |text|
    ensures text <= r
    ensures forall i :: |text| <= i < |r| ==> r[i] == '\0'
  {
    if |text| < width then text + seq(width - |text|, _ => '\0') else text
  }

  /** The server's buffer after `memset(buff, 0, sizeof(buff))` and a
      `recv` that stored `held`: at most 1024 received bytes, then NULs. */
  function Received(held: string): (r: string)
    ensures |r| == MaxLine
    ensures forall i :: 0 <= i < MaxLine ==> r[i] == if i < |held| then held[i] else '\0'
  {
    Pad(if |held| <= MaxLine then held else held[..MaxLine], MaxLine)
  }

  /** `snprintf` writing `text` into `buffer`: the text and its terminating
      NUL replace the first bytes, and the bytes after them stay. */
  function Overwrite(buffer: string, text: string): (r: string)
    requires |text| < |buffer|
    ensures |r| == |buffer|
    ensures text <= r && r[|text|] == '\0'
    ensures r[|text| + 1..] == buffer[|text| + 1..]
  {
    text + ['\0'] + buffer[|text| + 1..]
  }

  /** The bytes one `send` puts on the stream. The ace prompt is sent as the
      whole 1024-byte buffer (server_blackjack.c:258-259): the prompt, its
      NUL, and after them whatever the buffer still held from the reply
      received before it. Every other message is sent up to its terminating
      NUL. A C reader sees the same string either way. */
  function Wire(m: Msg): (r: string)
    ensures m.AcePrompt? && |Render(m)| < MaxLine ==>
      |r| == MaxLine && r[|Render(m)|] == '\0'
      && forall i :: |Render(m)| < i < MaxLine ==> r[i] == if i < |m.held| then m.held[i] else '\0'
    ensures !m.AcePrompt? ==> r == Render(m)
    ensures Render(m) <= r
    ensures '\0' !in Render(m) ==> CStr(r) == Render(m)
  {
    var text := Render(m);
    if m.AcePrompt? && |text| < MaxLine then
      AceBuffer(text, m.held);
      Overwrite(Received(m.held), text)
    else
      CStrWhole(text);
      text
  }

  /** The ace prompt `text` written over the buffer that received `held`:
      1024 bytes, the text, its NUL, then the rest of the received bytes. */
  lemma {:induction false} AceBuffer(text: string, held: string)
    requires |text| < MaxLine
    ensures var r := Overwrite(Received(held), text);
      |r| == MaxLine && text <= r && r[|text|] == '\0'
      && (forall i :: |text| < i < MaxLine ==> r[i] == if i < |held| then held[i] else '\0')
      && ('\0' !in text ==> CStr(r) == text)
  {
    var r := Overwrite(Received(held), text);
    if '\0' !in text {
      assert r == text + r[|text|..];
      CStrOfNulTail(text, r[|text|..]);
    }
  }

  /** A text without NUL reads back whole as a C string. */
  lemma {:induction false} CStrWhole(text: string)
    ensures '\0' !in text ==> CStr(text) == text
  {
    if '\0' !in text {
      assert text + [] == text;
      CStrOfNulTail(text, []);
    }
  }
}

=== FILE: options.dfy ===
/** The optional-value datatype used throughout the model: `None` stands for
    an absent file, a failed scan, or a card source that ran dry. */
module Options {

  datatype Option<+T> = None | Some(value: T)
}

=== FILE: protocol.dfy ===
/** Where the two programs meet: the server's texts (server_blackjack.c)
    against the client's substring tests (client_blackjack.c:148-170) and
    the server's prefix tests (server_blackjack.c:250-253). */
module Protocol {
  import opened CText
  import opened Messages
  import opened Engine
  import opened Client

  /** The server's questions are, character for character, the client's
      patterns. */
  lemma QuestionsArePatterns()
    ensures DrawQuestion == DrawPattern && AceQuestion == AcePattern
  {
  }

  /** The draw prompt, as the client receives it, holds the draw pattern. */
  lemma {:induction false} DrawPromptMatches(score: int)
    ensures Contains(CStr(Wire(DrawPrompt(score))), DrawPattern)
  {
    var head := "Your current score: " + FormatInt(score) + ". ";
    DrawPromptNulFree(score);
    ContainsInfix(head, DrawPattern, " \n");
  }

  /** The ace prompt, whatever follows its NUL, holds the ace pattern and
      not the draw pattern: it has no 's', which the draw pattern has. */
  lemma {:induction false} AcePromptMatches(card: int, held: string)
    ensures Contains(CStr(Wire(AcePrompt(card, held))), AcePattern)
    ensures !Contains(CStr(Wire(AcePrompt(card, held))), DrawPattern)
  {
    var head := "You drew a " + FormatInt(card) + ". ";
    AcePromptNulFree(card, held);
    ContainsInfix(head, AcePattern, " \n");
    AcePromptLacksS(card, held);
    if Contains(Render(AcePrompt(card, held)), DrawPattern) {
      ContainsKeepsChars(Render(AcePrompt(card, held)), DrawPattern, 's');
      assert false;
    }
  }

  /** For the cards that ask, the ace prompt goes out as exactly the
      1024-byte buffer: the prompt, a NUL, and then the bytes of the reply
      received before it that lie beyond the prompt, or NULs where that
      reply was shorter. The client reads the prompt alone. */
  lemma {:induction false} AcePromptCarriesReply(card: int, held: string)
    requires IsAce(card)
    ensures var text := Render(AcePrompt(card, held));
      var w := Wire(AcePrompt(card, held));
      |w| == MaxLine && CStr(w) == text
      && forall i :: |text| < i < MaxLine ==> w[i] == if i < |held| then held[i] else '\0'
  {
    AcePromptNulFree(card, held);
    AcePromptShort(card, held);
  }

  lemma {:induction false} AcePromptShort(card: int, held: string)
    requires IsAce(card)
    ensures |Render(AcePrompt(card, held))| < MaxLine
  {
    assert |FormatInt(card)| <= 2 by {
      if card == 11 {
        assert Digits(11) == Digits(1) + [DigitChar(1)];
      }
    }
  }

  lemma {:induction false} DrawPromptNulFree(score: int)
    ensures '\0' !in Render(DrawPrompt(score))
  {
    AroundNumber("Your current score: ", score, ". ", '\0');
    DrawQuestionNulFree();
  }

  lemma {:induction false} AcePromptNulFree(card: int, held: string)
    ensures '\0' !in Render(AcePrompt(card, held))
  {
    AroundNumber("You drew a ", card, ". ", '\0');
    AceQuestionNulFree();
  }

  lemma {:induction false} AcePromptLacksS(card: int, held: string)
    ensures 's' !in Render(AcePrompt(card, held))
  {
    AroundNumber("You drew a ", card, ". ", 's');
    AceQuestionLacksS();
  }

  /** A character that is neither a digit nor a minus sign is absent from
      a printed number and from whatever it is printed between. */
  lemma {:induction false} AroundNumber(a: string, n: int, b: string, c: char)
    requires c !in a && c !in b && c != '-' && !IsDigit(c)
    ensures c !in a + FormatInt(n) + b
  {
    FormatIntChars(n);
  }

  lemma DrawQuestionNulFree()
    ensures '\0' !in DrawQuestion
  {
  }

  lemma AceQuestionNulFree()
    ensures '\0' !in AceQuestion
  {
  }

  lemma AceQuestionLacksS()
    ensures 's' !in AceQuestion
  {
  }

  /** What the client sends at a draw prompt the server reads as meant:
      "yes" as yes, "no" as no, never as invalid input. The client always
      reacts to the prompt, by sending or by refusing. */
  lemma {:induction false} DrawAnswerUnderstood(score: int, input: string)
    ensures ReplyTo(Wire(DrawPrompt(score)), input) != Ignore
    ensures var a := ReplyTo(Wire(DrawPrompt(score)), input);
      a.Send? ==> (SaysYes(a.text) <==> a.text == "yes") && (SaysNo(a.text) <==> a.text == "no")
                  && (SaysYes(a.text) || SaysNo(a.text))
  {
    DrawPromptMatches(score);
  }

  /** At an ace prompt the client forwards the typed line unchecked; the
      server's draw of that ace, over the buffer still holding `held`, then
      adds 11 exactly when the line reads as 11 and 1 otherwise. */
  lemma {:induction false} AceAnswerForwarded(card: int, held: string, input: string,
                                              score: int, rolls: seq<nat>, more: seq<string>, sent: seq<Msg>)
    ensures ReplyTo(Wire(AcePrompt(card, held)), input) == Send(Typed(input))
    ensures score < 21 && |rolls| > 0 && DrawCard(rolls[0]) == card && IsAce(card) ==>
      var r := Draw(score, rolls, held, [Typed(input)] + more, sent);
      r.next.score == score + (if Atoi(Typed(input)) == 11 then 11 else 1) && r.next.replies == more
  {
    AcePromptMatches(card, held);
    assert ([Typed(input)] + more)[1..] == more;
  }

  /** The menu echoes the player's name, so a name holding the draw
      pattern turns the menu into a draw prompt for the client: it then
      refuses to send the menu choice "1". */
  lemma {:induction false} NameCanPoseAsDrawPrompt(name: string, input: string)
    requires Contains(name, DrawPattern) && '\0' !in name
    ensures ReplyTo(Wire(Menu(name)), input) != Ignore
    ensures ReplyTo(Wire(Menu(name)), "1\n") == Refuse
  {
    MenuShowsName(name);
    TypedOne();
  }

  /** The client reads the menu with the name in it. */
  lemma {:induction false} MenuShowsName(name: string)
    requires Contains(name, DrawPattern) && '\0' !in name
    ensures Contains(CStr(Wire(Menu(name))), DrawPattern)
  {
    MenuReadsName(name);
    ContainsWithin("Welcome, ", name, CStr(MenuOptions), DrawPattern);
  }

  lemma {:induction false} MenuReadsName(name: string)
    requires '\0' !in name
    ensures CStr(Wire(Menu(name))) == "Welcome, " + name + CStr(MenuOptions)
  {
    var head := "Welcome, " + name;
    assert Wire(Menu(name)) == head + MenuOptions;
    CStrOfPrefix(head, MenuOptions);
  }

  /** The line "1" is typed as "1", which is neither "yes" nor "no". */
  lemma TypedOne()
    ensures Typed("1\n") == "1" && Typed("1\n") != "yes" && Typed("1\n") != "no"
  {
    CutLine("1", "\n", MaxLine - 1);
    assert "1" + "\n" == "1\n";
  }
}

=== FILE: rankings.dfy ===
/** The ranking table (server_blackjack.c:27-33, 158-224) as a value: at
    most ten records in insertion order, updated after every hand, written
    as one `"%s %d %d %d\n"` line per record and read back with
    `fscanf("%49s %d %d %d")`. */
module Rankings {
  import opened Options
  import opened CText
  import opened Messages

  /** MAX_PLAYERS. */
  const MaxPlayers: nat := 10

  /** `char name[50]` holds at most 49 characters. */
  const NameWidth: Width := 49

  datatype Player = Player(name: string, wins: int, draws: int, losses: int)

  /** The first record carrying `name`, as the `strcmp` loop finds it. */
  function Find(t: seq<Player>, name: string): (r: Option<nat>)
    ensures r.Some? ==> r.value < |t| && t[r.value].name == name
    ensures r.Some? ==> forall j :: 0 <= j < r.value ==> t[j].name != name
    ensures r.None? ==> forall j :: 0 <= j < |t| ==> t[j].name != name
    decreases |t|
  {
    if |t| == 0 then None
    else if t[0].name == name then Some(0)
    else match Find(t[1..], name)
      case None => None
      case Some(i) => Some(i + 1)
  }

  /** 1 when the counter is the one `result` selects, else 0. */
  function Tally(selected: bool): nat
  {
    if selected then 1 else 0
  }

  /** A record after one more result; a result other than 1, 0 or -1
      changes nothing. */
  function Bump(p: Player, result: int): Player
  {
    Player(p.name, p.wins + Tally(result == 1), p.draws + Tally(result == 0), p.losses + Tally(result == -1))
  }

  /** What `strncpy(name, src, 49)` keeps. */
  function Truncate(name: string): (r: string)
    ensures r <= name
    ensures |r| == if |name| <= NameWidth then |name| else NameWidth
  {
    if |name| <= NameWidth then name else name[..NameWidth]
  }

  /** `update_player_stats` (server_blackjack.c:194-213). */
  function Update(t: seq<Player>, name: string, result: int): (r: seq<Player>)
    // a known name: only its counter selected by the result moves
    ensures Find(t, name).Some? ==>
      var i := Find(t, name).value;
      |r| == |t| && r[i] == Bump(t[i], result)
      && forall j :: 0 <= j < |t| && j != i ==> r[j] == t[j]
    // an unknown name is appended while there is room ...
    ensures Find(t, name).None? && |t| < MaxPlayers ==>
      |r| == |t| + 1 && r[..|t|] == t
      && r[|t|] == Player(Truncate(name), Tally(result == 1), Tally(result == 0), Tally(result == -1))
    // ... and silently dropped when the table is full
    ensures Find(t, name).None? && |t| >= MaxPlayers ==> r == t
    ensures |t| <= MaxPlayers ==> |r| <= MaxPlayers
  {
    match Find(t, name)
    case Some(i) => t[i := Bump(t[i], result)]
    case None =>
      if |t| < MaxPlayers then t + [Bump(Player(Truncate(name), 0, 0, 0), result)] else t
  }

  /** No two records share a name. */
  predicate Distinct(t: seq<Player>)
  {
    forall i, j :: 0 <= i < j < |t| ==> t[i].name != t[j].name
  }

  /** With names that fit the buffer, updates never create a second record
      for a name. */
  lemma {:induction false} UpdateKeepsDistinct(t: seq<Player>, name: string, result: int)
    requires Distinct(t)
    requires |name| <= NameWidth
    ensures Distinct(Update(t, name, result))
  {
  }

  /** Games recorded in a table: every counter summed. */
  function Games(t: seq<Player>): int
    decreases |t|
  {
    if |t| == 0 then 0 else t[0].wins + t[0].draws + t[0].losses + Games(t[1..])
  }

  lemma {:induction false} GamesAppend(t: seq<Player>, p: Player)
    ensures Games(t + [p]) == Games(t) + p.wins + p.draws + p.losses
    decreases |t|
  {
    if |t| > 0 {
      assert (t + [p])[1..] == t[1..] + [p];
      GamesAppend(t[1..], p);
    } else {
      assert [] + [p] == [p];
    }
  }

  lemma {:induction false} GamesReplace(t: seq<Player>, i: nat, p: Player)
    requires i < |t|
    ensures Games(t[i := p]) == Games(t) - (t[i].wins + t[i].draws + t[i].losses) + p.wins + p.draws + p.losses
    decreases i
  {
    if i > 0 {
      assert t[i := p][1..] == t[1..][i - 1 := p];
      GamesReplace(t[1..], i - 1, p);
    }
  }

  /** Every recorded hand adds exactly one game to the table, unless the
      table is full and the name new. */
  lemma {:induction false} UpdateAddsOneGame(t: seq<Player>, name: string, result: int)
    requires result in {-1, 0, 1}
    requires Find(t, name).Some? || |t| < MaxPlayers
    ensures Games(Update(t, name, result)) == Games(t) + 1
  {
    match Find(t, name)
    case Some(i) => GamesReplace(t, i, Bump(t[i], result));
    case None => GamesAppend(t, Bump(Player(Truncate(name), 0, 0, 0), result));
  }

  /** Looking the name up after an update finds its record with the result
      counted; every other name finds what it found before. */
  lemma {:induction false} UpdateThenFind(t: seq<Player>, name: string, result: int, other: string)
    requires |name| <= NameWidth
    requires Find(t, name).Some? || |t| < MaxPlayers
    requires other != name
    ensures var r := Update(t, name, result);
      Find(r, name).Some?
      && r[Find(r, name).value] == Bump(if Find(t, name).Some? then t[Find(t, name).value] else Player(name, 0, 0, 0), result)
      && Find(r, other) == Find(t, other)
  {
    var r := Update(t, name, result);
    match Find(t, name)
    case Some(i) =>
      FindUnchanged(t, r, name, i);
      FindByNames(t, r, other);
    case None =>
      FindAppended(t, r, name);
      forall j | 0 <= j < |t| ensures r[j].name == t[j].name {
        assert r[j] == r[..|t|][j];
      }
      FindByNames(t, r, other);
  }

  /** `Find` looks at names only: a table with the same names in the same
      places, plus perhaps one more record with a different name at the
      end, answers the same. */
  lemma {:induction false} FindByNames(t: seq<Player>, r: seq<Player>, other: string)
    requires |t| <= |r| <= |t| + 1
    requires forall j :: 0 <= j < |t| ==> r[j].name == t[j].name
    requires |r| == |t| + 1 ==> r[|t|].name != other
    ensures Find(r, other) == Find(t, other)
    decreases |t|
  {
    if |t| == 0 {
      if |r| == 1 {
        assert r[0].name != other;
        assert Find(r[1..], other) == None;
      }
    } else {
      assert r[0].name == t[0].name;
      if t[0].name != other {
        FindByNames(t[1..], r[1..], other);
      }
    }
  }

  lemma {:induction false} FindUnchanged(t: seq<Player>, r: seq<Player>, name: string, i: nat)
    requires Find(t, name) == Some(i)
    requires |r| == |t|
    requires forall j :: 0 <= j < |t| && j != i ==> r[j] == t[j]
    requires r[i].name == name
    ensures Find(r, name) == Some(i)
  {
    FindFirst(r, name, i);
  }

  lemma {:induction false} FindAppended(t: seq<Player>, r: seq<Player>, name: string)
    requires Find(t, name).None?
    requires |r| == |t| + 1 && r[..|t|] == t && r[|t|].name == name
    ensures Find(r, name) == Some(|t|)
  {
    forall j | 0 <= j < |t| ensures r[j].name != name {
      assert r[j] == r[..|t|][j];
    }
    FindFirst(r, name, |t|);
  }

  /** `Find` answers the first index with the name. */
  lemma {:induction false} FindFirst(t: seq<Player>, name: string, i: nat)
    requires i < |t| && t[i].name == name
    requires forall j :: 0 <= j < i ==> t[j].name != name
    ensures Find(t, name) == Some(i)
    decreases i
  {
    if i > 0 {
      FindFirst(t[1..], name, i - 1);
    }
  }

  /** One saved line, `"%s %d %d %d\n"` (server_blackjack.c:166). */
  function Line(p: Player): string
  {
    p.name + " " + FormatInt(p.wins) + " " + FormatInt(p.draws) + " " + FormatInt(p.losses) + "\n"
  }

  /** The file `save_rankings` writes (server_blackjack.c:158-171): one
      line per record, in table order, each ending in a newline. */
  function Save(t: seq<Player>): (r: string)
    ensures |t| == 0 <==> r == ""
    ensures |t| > 0 ==> r[|r| - 1] == '\n'
  {
    if |t| > 0 then SaveEnds(t); SaveOnto(t, "") else SaveOnto(t, "")
  }

  /** A non-empty table's file ends with its last line's newline. */
  lemma {:induction false} SaveEnds(t: seq<Player>)
    requires |t| > 0
    ensures |SaveOnto(t, "")| > 0 && SaveOnto(t, "")[|SaveOnto(t, "")| - 1] == '\n'
    decreases |t|
  {
    if |t| > 1 {
      SaveEnds(t[1..]);
    }
  }

  /** Saving a table writes its two parts one after the other. */
  lemma {:induction false} SaveAppend(t: seq<Player>, u: seq<Player>)
    ensures Save(t + u) == Save(t) + Save(u)
    decreases |t|
  {
    if |t| == 0 {
      assert t + u == u;
    } else {
      assert (t + u)[1..] == t[1..] + u;
      SaveAppend(t[1..], u);
      Assoc(Line(t[0]), Save(t[1..]), Save(u));
    }
  }

  /** The lines written for `t`, in table order, followed by `rest`. */
  function SaveOnto(t: seq<Player>, rest: string): string
    decreases |t|
  {
    if |t| == 0 then rest else Line(t[0]) + SaveOnto(t[1..], rest)
  }

  /** Text after a saved file is text after its last line. */
  lemma {:induction false} SaveThen(t: seq<Player>, rest: string)
    ensures Save(t) + rest == SaveOnto(t, rest)
    decreases |t|
  {
    if |t| == 0 {
      assert "" + rest == rest;
    } else {
      SaveThen(t[1..], rest);
      Assoc(Line(t[0]), SaveOnto(t[1..], ""), rest);
    }
  }

  /** The format `load_rankings` reads a record with: `"%49s %d %d %d"`. */
  const RecordFormat: seq<Conversion> := [Word(NameWidth), Decimal, Decimal, Decimal]

  /** One `fscanf(file, "%49s %d %d %d", ...)` that matched all four fields:
      the record and the input after it. `None` when fewer than four
      matched. (The kinds of the fields always follow the format.) */
  function ScanRecord(s: string): (r: Option<(Player, string)>)
    ensures r.Some? ==> |r.value.1| < |s|
  {
    var (fields, rest) := ScanFormat(s, RecordFormat);
    if |fields| == 4 && fields[0].Text? && fields[1].Number? && fields[2].Number? && fields[3].Number?
    then Some((Player(CStr(fields[0].text), fields[1].value, fields[2].value, fields[3].value), rest))
    else None
  }

  /** The `fscanf` loop (server_blackjack.c:182-188): records until one does
      not match or `room` of them have been read. */
  function ParseRecords(s: string, room: nat): (r: seq<Player>)
    ensures |r| <= room
    decreases room, 1
  {
    if room == 0 then [] else ReadRecord(s, room)
  }

  /** One turn of the loop with room left: the record read, then the rest
      of the loop; nothing when the record does not match. */
  function ReadRecord(s: string, room: nat): (r: seq<Player>)
    requires 0 < room
    ensures |r| <= room
    decreases room, 0
  {
    match ScanRecord(s)
    case None => []
    case Some((p, rest)) => [p] + ParseRecords(rest, room - 1)
  }

  /** `load_rankings` (server_blackjack.c:173-192). `None` is a file that
      could not be opened, for whatever reason: the table is kept as it
      was. An opened file replaces the table with what it holds, at most
      ten records. */
  function Load(file: Option<string>, t: seq<Player>): (r: seq<Player>)
    ensures file.None? ==> r == t
    ensures file.Some? ==> |r| <= MaxPlayers
  {
    match file
    case None => t
    case Some(text) => ParseRecords(text, MaxPlayers)
  }

  /** A record the file format can carry: a name that is one `%49s` word
      without NULs, and counters that fit an `int`. */
  predicate WellFormed(p: Player)
  {
    && IsWord(p.name) && |p.name| <= NameWidth && '\0' !in p.name
    && INT_MIN <= p.wins <= INT_MAX && INT_MIN <= p.draws <= INT_MAX && INT_MIN <= p.losses <= INT_MAX
  }

  /** Every record of the table is `WellFormed`. */
  predicate Storable(t: seq<Player>)
    decreases |t|
  {
    |t| == 0 || (WellFormed(t[0]) && Storable(t[1..]))
  }

  /** The counters of a saved line scan back, leaving what follows. */
  lemma {:induction false} ScanCountersOf(w: int, d: int, l: int, rest: string)
    requires INT_MIN <= w <= INT_MAX && INT_MIN <= d <= INT_MAX && INT_MIN <= l <= INT_MAX
    requires |rest| == 0 || !IsDigit(rest[0])
    ensures ScanFormat(" " + FormatInt(w) + (" " + FormatInt(d) + (" " + FormatInt(l) + rest)), [Decimal, Decimal, Decimal])
         == ([Number(w), Number(d), Number(l)], rest)
  {
    var s3 := " " + FormatInt(l) + rest;
    var s2 := " " + FormatInt(d) + s3;
    assert s2[0] == ' ' && s3[0] == ' ';
    ScanFormatted(" ", l, rest);
    ScanFormatted(" ", d, s3);
    ScanFormatted(" ", w, s2);
    ScanThree(" " + FormatInt(w) + s2, s2, s3, rest, w, d, l);
  }

  /** Three `%d` conversions in a row give the three counters. */
  lemma {:induction false} ScanThree(s1: string, s2: string, s3: string, rest: string, w: int, d: int, l: int)
    requires INT_MIN <= w <= INT_MAX && INT_MIN <= d <= INT_MAX && INT_MIN <= l <= INT_MAX
    requires ScanDecimal(s1) == Some((w, s2))
    requires ScanDecimal(s2) == Some((d, s3))
    requires ScanDecimal(s3) == Some((l, rest))
    ensures ScanFormat(s1, [Decimal, Decimal, Decimal]) == ([Number(w), Number(d), Number(l)], rest)
  {
    assert ScanFormat(rest, []) == ([], rest);
    ConvertDecimal(s3, l, rest);
    assert [Decimal][1..] == [];
    ScanFormatStep(s3, [Decimal], Number(l), rest, [], rest);
    assert [Number(l)] + [] == [Number(l)];
    ConvertDecimal(s2, d, s3);
    assert [Decimal, Decimal][1..] == [Decimal];
    ScanFormatStep(s2, [Decimal, Decimal], Number(d), s3, [Number(l)], rest);
    assert [Number(d)] + [Number(l)] == [Number(d), Number(l)];
    ConvertDecimal(s1, w, s2);
    assert [Decimal, Decimal, Decimal][1..] == [Decimal, Decimal];
    ScanFormatStep(s1, [Decimal, Decimal, Decimal], Number(w), s2, [Number(d), Number(l)], rest);
    assert [Number(w)] + [Number(d), Number(l)] == [Number(w), Number(d), Number(l)];
  }

  /** A word and three counters that scan make one record. */
  lemma {:induction false} ScanRecordOf(s: string, name: string, s1: string, w: int, d: int, l: int, after: string)
    requires '\0' !in name
    requires ScanWord(s, NameWidth) == Some((name, s1))
    requires ScanFormat(s1, [Decimal, Decimal, Decimal]) == ([Number(w), Number(d), Number(l)], after)
    ensures ScanRecord(s) == Some((Player(name, w, d, l), after))
  {
    assert Convert(s, Word(NameWidth)) == Some((Text(name), s1));
    assert RecordFormat[1..] == [Decimal, Decimal, Decimal];
    ScanFormatStep(s, RecordFormat, Text(name), s1, [Number(w), Number(d), Number(l)], after);
    assert [Text(name)] + [Number(w), Number(d), Number(l)] == [Text(name), Number(w), Number(d), Number(l)];
    CStrOfNulTail(name, []);
    assert name + [] == name;
  }

  /** A saved line, regrouped from the right. */
  lemma {:induction false} LineRegrouped(p: Player, rest: string)
    ensures Line(p) + rest
         == p.name + (" " + FormatInt(p.wins) + (" " + FormatInt(p.draws) + (" " + FormatInt(p.losses) + ("\n" + rest))))
  {
    var n, w, d, l := p.name, FormatInt(p.wins), FormatInt(p.draws), FormatInt(p.losses);
    calc {
      Line(p) + rest;
      n + " " + w + " " + d + " " + l + "\n" + rest;
      { Assoc(n + " " + w + " " + d + " " + l, "\n", rest); }
      n + " " + w + " " + d + " " + l + ("\n" + rest);
      { Assoc(n + " " + w + " " + d + " ", l, "\n" + rest); }
      n + " " + w + " " + d + " " + (l + ("\n" + rest));
      { Assoc(n + " " + w + " " + d, " ", l + ("\n" + rest)); }
      n + " " + w + " " + d + (" " + (l + ("\n" + rest)));
      { Assoc(" ", l, "\n" + rest); }
      n + " " + w + " " + d + (" " + l + ("\n" + rest));
      { Assoc(n + " " + w + " ", d, " " + l + ("\n" + rest)); }
      n + " " + w + " " + (d + (" " + l + ("\n" + rest)));
      { Assoc(n + " " + w, " ", d + (" " + l + ("\n" + rest))); Assoc(" ", d, " " + l + ("\n" + rest)); }
      n + " " + w + (" " + d + (" " + l + ("\n" + rest)));
      { Assoc(n + " ", w, " " + d + (" " + l + ("\n" + rest))); }
      n + " " + (w + (" " + d + (" " + l + ("\n" + rest))));
      { Assoc(n, " ", w + (" " + d + (" " + l + ("\n" + rest)))); Assoc(" ", w, " " + d + (" " + l + ("\n" + rest))); }
      n + (" " + w + (" " + d + (" " + l + ("\n" + rest))));
    }
  }

  /** One saved line scans back to its record, leaving its newline. */
  lemma {:induction false} ScanLine(p: Player, rest: string)
    requires WellFormed(p)
    ensures ScanRecord(Line(p) + rest) == Some((p, "\n" + rest))
  {
    var counters := " " + FormatInt(p.wins) + (" " + FormatInt(p.draws) + (" " + FormatInt(p.losses) + ("\n" + rest)));
    LineRegrouped(p, rest);
    ScanWordOf(p.name, counters, NameWidth);
    ScanCountersOf(p.wins, p.draws, p.losses, "\n" + rest);
    ScanRecordOf(p.name + counters, p.name, counters, p.wins, p.draws, p.losses, "\n" + rest);
  }

  /** Leading white space does not change what the loop reads. */
  lemma {:induction false} ParseSkipsSpace(s: string, room: nat)
    ensures ParseRecords("\n" + s, room) == ParseRecords(s, room)
  {
    SkipSpaceCons('\n', s);
    ScanWordSame("\n" + s, s, NameWidth);
    ParseSame("\n" + s, s, room);
  }

  /** Inputs on which `%49s` reads the same word read the same records. */
  lemma {:induction false} ParseSame(a: string, b: string, room: nat)
    requires ScanWord(a, NameWidth) == ScanWord(b, NameWidth)
    ensures ParseRecords(a, room) == ParseRecords(b, room)
  {
    ScanRecordSame(a, b);
    if room > 0 {
      assert ReadRecord(a, room) == ReadRecord(b, room);
    }
  }

  /** Inputs on which `%49s` reads the same word scan the same record. */
  lemma {:induction false} ScanRecordSame(a: string, b: string)
    requires ScanWord(a, NameWidth) == ScanWord(b, NameWidth)
    ensures ScanRecord(a) == ScanRecord(b)
  {
    assert RecordFormat[0] == Word(NameWidth);
    if ScanWord(a, NameWidth).Some? {
      assert ScanFormat(a, RecordFormat) == ScanFormat(b, RecordFormat);
    }
  }

  /** A record that scans, followed by its newline, is the next one read. */
  lemma {:induction false} ParseRecord(s: string, p: Player, after: string, room: nat)
    requires 0 < room
    requires ScanRecord(s) == Some((p, "\n" + after))
    ensures ParseRecords(s, room) == [p] + ParseRecords(after, room - 1)
  {
    ParseSkipsSpace(after, room - 1);
  }

  /** The loop reads one saved line as one record. */
  lemma {:induction false} ParseLine(p: Player, after: string, room: nat)
    requires WellFormed(p)
    requires 0 < room
    ensures ParseRecords(Line(p) + after, room) == [p] + ParseRecords(after, room - 1)
  {
    ScanLine(p, after);
    ParseRecord(Line(p) + after, p, after, room);
  }

  /** The first line of a saved table yields its first record. */
  lemma {:induction false} ParseSavedStep(t: seq<Player>, rest: string, room: nat)
    requires 0 < |t| && 0 < room
    requires WellFormed(t[0])
    ensures ParseRecords(SaveOnto(t, rest), room) == [t[0]] + ParseRecords(SaveOnto(t[1..], rest), room - 1)
  {
    ParseLine(t[0], SaveOnto(t[1..], rest), room);
  }

  /** A saved table that fits the room is read back whole, and reading goes
      on into what follows it with the room that is left. */
  lemma {:induction false} ParseSavedFits(t: seq<Player>, rest: string, room: nat, left: nat)
    requires Storable(t)
    requires room == |t| + left
    ensures ReadsThrough(SaveOnto(t, rest), room, t, rest, left)
    decreases |t|, 2
  {
    if |t| == 0 {
      ParseSavedEmpty(t, rest, room, left);
    } else {
      ParseFitsStep(t, rest, room, left);
    }
  }

  /** The `fscanf` loop of `load_rankings` (server_blackjack.c:182-188),
      run on a file `s` with `room` free slots of `players`, fills the slots
      with the records `t` and then with whatever the same loop reads from
      `rest`, the text after them, with the `left` slots that remain. Kept as
      a named fact so that the induction over the saved lines states its
      step once. */
  predicate ReadsThrough(s: string, room: nat, t: seq<Player>, rest: string, left: nat)
  {
    ParseRecords(s, room) == t + ParseRecords(rest, left)
  }

  /** The induction step of `ParseSavedFits`. */
  lemma {:induction false} ParseFitsStep(t: seq<Player>, rest: string, room: nat, left: nat)
    requires 0 < |t| && WellFormed(t[0])
    requires room == |t| + left
    requires Storable(t[1..])
    ensures ReadsThrough(SaveOnto(t, rest), room, t, rest, left)
    decreases |t|, 1
  {
    ParseSavedTail(t, rest, room, left);
    ParseSavedJoin(t, rest, room, left);
  }

  /** The induction hypothesis of `ParseSavedFits`, for the tail. */
  lemma {:induction false} ParseSavedTail(t: seq<Player>, rest: string, room: nat, left: nat)
    requires 0 < |t|
    requires room == |t| + left
    requires Storable(t[1..])
    ensures ReadsThrough(SaveOnto(t[1..], rest), room - 1, t[1..], rest, left)
    decreases |t|, 0
  {
    ParseSavedFits(t[1..], rest, room - 1, left);
  }

  /** The first line of the file in front of the tail read back. */
  lemma {:induction false} ParseSavedJoin(t: seq<Player>, rest: string, room: nat, left: nat)
    requires 0 < |t| && WellFormed(t[0])
    requires room == |t| + left
    requires ReadsThrough(SaveOnto(t[1..], rest), room - 1, t[1..], rest, left)
    ensures ReadsThrough(SaveOnto(t, rest), room, t, rest, left)
  {
    ParseSavedStep(t, rest, room);
    var a, b, more := ParseRecords(SaveOnto(t, rest), room), ParseRecords(SaveOnto(t[1..], rest), room - 1), ParseRecords(rest, left);
    Rejoin(t, a, b, more);
  }


  /** An empty saved table reads nothing. */
  lemma {:induction false} ParseSavedEmpty(t: seq<Player>, rest: string, room: nat, left: nat)
    requires |t| == 0 && room == left
    ensures ReadsThrough(SaveOnto(t, rest), room, t, rest, left)
  {
    assert t + ParseRecords(rest, left) == ParseRecords(rest, left);
  }

  /** A saved table longer than the room is cut to its first `room`
      records. */
  lemma {:induction false} ParseSavedCut(t: seq<Player>, rest: string, room: nat)
    requires Storable(t)
    requires room < |t|
    ensures ParseRecords(SaveOnto(t, rest), room) == t[..room]
    decreases room, 2
  {
    if room == 0 {
      assert t[..room] == [];
    } else {
      ParseCutStep(t, rest, room);
    }
  }

  /** The induction step of `ParseSavedCut`. */
  lemma {:induction false} ParseCutStep(t: seq<Player>, rest: string, room: nat)
    requires 0 < room < |t| && WellFormed(t[0])
    requires Storable(t[1..])
    ensures ParseRecords(SaveOnto(t, rest), room) == t[..room]
    decreases room, 1
  {
    ParseCutTail(t, rest, room);
    ParseCutJoin(t, rest, room);
  }

  /** The `fscanf` loop of `load_rankings` (server_blackjack.c:182-188),
      run on a file `s` with `room` free slots of `players`, stores exactly
      the records `r` before it stops. */
  predicate ReadsAs(s: string, room: nat, r: seq<Player>)
  {
    ParseRecords(s, room) == r
  }

  /** The induction hypothesis of `ParseSavedCut`, for the tail. */
  lemma {:induction false} ParseCutTail(t: seq<Player>, rest: string, room: nat)
    requires 0 < room < |t|
    requires Storable(t[1..])
    ensures ReadsAs(SaveOnto(t[1..], rest), room - 1, t[1..][..room - 1])
    decreases room, 0
  {
    ParseSavedCut(t[1..], rest, room - 1);
  }

  /** The first line of the file in front of the cut tail. */
  lemma {:induction false} ParseCutJoin(t: seq<Player>, rest: string, room: nat)
    requires 0 < room < |t| && WellFormed(t[0])
    requires ReadsAs(SaveOnto(t[1..], rest), room - 1, t[1..][..room - 1])
    ensures ParseRecords(SaveOnto(t, rest), room) == t[..room]
  {
    ParseSavedStep(t, rest, room);
    var a, b := ParseRecords(SaveOnto(t, rest), room), ParseRecords(SaveOnto(t[1..], rest), room - 1);
    CutStep(t, a, b, room);
  }

  /** The list algebra of `ParseSavedJoin`. */
  lemma {:induction false} Rejoin(t: seq<Player>, a: seq<Player>, b: seq<Player>, more: seq<Player>)
    requires 0 < |t|
    requires a == [t[0]] + b
    requires b == t[1..] + more
    ensures a == t + more
  {
    assert t == [t[0]] + t[1..];
  }

  /** The list algebra of `ParseCutJoin`. */
  lemma {:induction false} CutStep(t: seq<Player>, a: seq<Player>, b: seq<Player>, room: nat)
    requires 0 < room <= |t|
    requires a == [t[0]] + b
    requires b == t[1..][..room - 1]
    ensures a == t[..room]
  {
    assert t[..room] == [t[0]] + t[1..][..room - 1];
  }

  /** Saving then loading gives the table back, for tables the format can
      carry; the in-memory table before the load plays no part. */
  lemma {:induction false} LoadSaveRoundTrip(t: seq<Player>, before: seq<Player>)
    requires |t| <= MaxPlayers
    requires Storable(t)
    ensures Load(Some(Save(t)), before) == t
  {
    ScanRecordEmpty();
    ParseSavedStops(t, "", MaxPlayers);
  }

  /** A longer file is cut after ten records. */
  lemma {:induction false} LoadKeepsFirstTen(t: seq<Player>, before: seq<Player>)
    requires |t| > MaxPlayers
    requires Storable(t)
    ensures Load(Some(Save(t)), before) == t[..MaxPlayers]
  {
    ParseSavedCut(t, "", MaxPlayers);
  }

  /** Reading stops at the first record that does not match all four
      fields; everything before it is kept. */
  lemma {:induction false} LoadStopsAtMismatch(t: seq<Player>, rest: string, before: seq<Player>)
    requires |t| < MaxPlayers
    requires Storable(t)
    requires ScanRecord(rest).None?
    ensures Load(Some(Save(t) + rest), before) == t
  {
    SaveThen(t, rest);
    ParseSavedStops(t, rest, MaxPlayers);
  }

  /** A saved table read with room to spare, followed by text where no
      record matches, is read back exactly. */
  lemma {:induction false} ParseSavedStops(t: seq<Player>, rest: string, room: nat)
    requires Storable(t)
    requires |t| <= room
    requires |t| == room || ScanRecord(rest).None?
    ensures ParseRecords(SaveOnto(t, rest), room) == t
  {
    ParseSavedFits(t, rest, room, room - |t|);
    ReadsThenStops(SaveOnto(t, rest), room, t, rest, room - |t|);
  }

  /** Reading `t` and then nothing is reading exactly `t`. */
  lemma {:induction false} ReadsThenStops(s: string, room: nat, t: seq<Player>, rest: string, left: nat)
    requires ReadsThrough(s, room, t, rest, left)
    requires left == 0 || ScanRecord(rest).None?
    ensures ParseRecords(s, room) == t
  {
    ParseStops(rest, left);
    assert t + [] == t;
  }

  /** Nothing is read without room or where no record matches. */
  lemma {:induction false} ParseStops(s: string, room: nat)
    requires room == 0 || ScanRecord(s).None?
    ensures ParseRecords(s, room) == []
  {
    if room > 0 {
      assert ReadRecord(s, room) == [];
    }
  }

  /** An empty file holds no record. */
  lemma ScanRecordEmpty()
    ensures ScanRecord("").None?
  {
    assert SkipSpace("") == "";
    assert Convert("", Word(NameWidth)).None?;
    assert RecordFormat[0] == Word(NameWidth);
  }

  /** The listing line of a record (server_blackjack.c:220-221). */
  function Listed(p: Player): Msg
  {
    RankLine(p.name, p.wins, p.draws, p.losses)
  }

  /** `display_rankings` (server_blackjack.c:215-224): the header, then one
      line per record in table order. */
  function Display(t: seq<Player>): (r: seq<Msg>)
    ensures |r| == |t| + 1 && r[0] == RankingsHeader
    ensures forall i :: 0 <= i < |t| ==> r[i + 1] == Listed(t[i])
    decreases |t|
  {
    if |t| == 0 then [RankingsHeader]
    else
      var r := Display(t[..|t| - 1]);
      r + [Listed(t[|t| - 1])]
  }

  /** After a hand, the listing changes in one line only: the player's own
      line shows the new counters, or a new last line lists a new player. */
  lemma {:induction false} DisplayAfterUpdate(t: seq<Player>, name: string, result: int)
    ensures Find(t, name).Some? ==>
      var i := Find(t, name).value;
      Display(Update(t, name, result)) == Display(t)[i + 1 := Listed(Bump(t[i], result))]
    ensures Find(t, name).None? && |t| < MaxPlayers ==>
      Display(Update(t, name, result)) == Display(t) + [Listed(Update(t, name, result)[|t|])]
  {
    if Find(t, name).Some? {
      var i := Find(t, name).value;
      DisplayOneChanged(t, Update(t, name, result), i);
    } else if |t| < MaxPlayers {
      DisplayOneMore(t, Update(t, name, result));
    }
  }

  /** Tables that differ in record `i` list differently in its line only. */
  lemma {:induction false} DisplayOneChanged(t: seq<Player>, u: seq<Player>, i: nat)
    requires i < |t| == |u|
    requires forall j :: 0 <= j < |t| && j != i ==> u[j] == t[j]
    ensures Display(u) == Display(t)[i + 1 := Listed(u[i])]
  {
    var a, b := Display(u), Display(t);
    var c := b[i + 1 := Listed(u[i])];
    forall k | 0 <= k < |a| ensures a[k] == c[k] {
      if k > 0 {
        assert a[k] == Listed(u[k - 1]);
      }
    }
  }

  /** A table with one more record lists one more line. */
  lemma {:induction false} DisplayOneMore(t: seq<Player>, u: seq<Player>)
    requires |u| == |t| + 1 && u[..|t|] == t
    ensures Display(u) == Display(t) + [Listed(u[|t|])]
  {
    var a, b := Display(u), Display(t);
    var c := b + [Listed(u[|t|])];
    forall k | 0 <= k < |a| ensures a[k] == c[k] {
      if 0 < k <= |t| {
        assert u[k - 1] == t[k - 1];
      }
    }
  }
}

=== FILE: scenarios.dfy ===
/** Whole-session and whole-hand cases worked through the model. */
module Scenarios {
  import opened Options
  import opened CText
  import opened Messages
  import opened Engine
  import opened Rankings
  import opened Session

  /** A new player "Alice" on a server with no table and no file wins one
      hand (dealer shows 10; she draws 10 and 9, stands on 19; the dealer
      draws 7 and stops on 17) and quits: the table, and the file, hold the
      single record `Alice 1 0 0`. */
  lemma AliceWinsFirstHand()
    ensures var r := HandleClient(Store([], None), [9, 9, 8, 6], ["Alice", "1", "yes", "yes", "no", "3"]);
      r.Some? && r.value.store.table == [Player("Alice", 1, 0, 0)]
      && r.value.store.file == Some(Save([Player("Alice", 1, 0, 0)]))
  {
    assert CStr("Alice") == "Alice";
    var v := Visit(Store([], None), [9, 9, 8, 6], ["1", "yes", "yes", "no", "3"], [NamePrompt]);
    AlicePlays(v);
    var w := MenuStep("Alice", v).next;
    assert MenuLoop("Alice", v) == MenuLoop("Alice", w);
    AliceQuits(w);
  }

  /** Her "3" ends the session, and the table is saved as it stands. */
  lemma {:induction false} AliceQuits(w: Visit)
    requires w.store.table == [Player("Alice", 1, 0, 0)] && w.replies == ["3"]
    ensures var r := MenuLoop("Alice", w);
      r.Some? && r.value.store.table == [Player("Alice", 1, 0, 0)]
  {
    assert MenuChoice(w.replies[0]) == QuitChoice;
  }

  /** Her "1" plays the hand and records the win. */
  lemma {:induction false} AlicePlays(v: Visit)
    requires v == Visit(Store([], None), [9, 9, 8, 6], ["1", "yes", "yes", "no", "3"], [NamePrompt])
    ensures var r := MenuStep("Alice", v);
      r.Again? && r.next.store.table == [Player("Alice", 1, 0, 0)] && r.next.replies == ["3"]
  {
    assert v.replies[1..] == ["yes", "yes", "no", "3"];
    AliceHand(v.rolls, v.replies[1..]);
  }

  /** Alice's hand: she stands on 19 and beats the dealer's 17. */
  lemma {:induction false} AliceHand(rolls: seq<nat>, replies: seq<string>)
    requires rolls == [9, 9, 8, 6] && replies == ["yes", "yes", "no", "3"]
    ensures var r := PlayHand(rolls, replies);
      r.Some? && r.value.result == 1 && r.value.player == 19 && r.value.dealer == 17 && r.value.replies == ["3"]
  {
    assert rolls[1..] == [9, 8, 6];
    AliceTurn();
    var t := PlayerTurn(Play(0, [9, 8, 6], replies, [FaceUp(10)]));
    assert PlayHand(rolls, replies) == Finish(rolls, t.value.0, Stood);
    AliceDealer(t.value.0);
  }

  /** After her turn the dealer, showing 10, draws 7 and stops on 17. */
  lemma {:induction false} AliceDealer(q: Play)
    requires q.score == 19 && q.rolls == [6] && q.replies == ["3"]
    ensures var r := Finish([9, 9, 8, 6], q, Stood);
      r.Some? && r.value.result == 1 && r.value.player == 19 && r.value.dealer == 17 && r.value.replies == ["3"]
  {
    assert [9, 9, 8, 6][1..][2..] == [6];
    assert DealerTurn(10, [6], q.sent).value.0 == 17;
  }

  /** Alice's turn: "yes" draws 10, "yes" draws 9, "no" stands on 19. */
  lemma AliceTurn()
    ensures var r := PlayerTurn(Play(0, [9, 8, 6], ["yes", "yes", "no", "3"], [FaceUp(10)]));
      r.Some? && r.value.1 == Stood && r.value.0.score == 19 && r.value.0.rolls == [6] && r.value.0.replies == ["3"]
  {
    var p0 := Play(0, [9, 8, 6], ["yes", "yes", "no", "3"], [FaceUp(10)]);
    DrawsOnYes(p0, 10, [8, 6], ["yes", "no", "3"]);
    var p1 := PlayerStep(p0).next;
    DrawsOnYes(p1, 19, [6], ["no", "3"]);
    var p2 := PlayerStep(p1).next;
    assert SaysNo(p2.replies[0]);
    assert p2.replies[1..] == ["3"];
  }

  /** A "yes" that draws a card other than 1 or 11 below 21 goes round. */
  lemma {:induction false} DrawsOnYes(p: Play, score: int, rolls: seq<nat>, replies: seq<string>)
    requires p.score < 21 && |p.rolls| > 0 && |p.replies| > 0 && p.replies[0] == "yes"
    requires !IsAce(DrawCard(p.rolls[0]))
    requires score == p.score + DrawCard(p.rolls[0]) < 21
    requires rolls == p.rolls[1..] && replies == p.replies[1..]
    ensures var r := PlayerStep(p);
      r.Continue? && r.next.score == score && r.next.rolls == rolls && r.next.replies == replies
  {
    assert !SaysNo("yes") && SaysYes("yes") by {
      assert "yes"[0] != "no"[0];
      assert "yes"[..3] == "yes";
    }
  }

  /** The known player "Bob" with `Bob 2 1 0` loses a hand: `Bob 2 1 1`. */
  lemma {:induction false} BobLosesOneHand(t: seq<Player>)
    requires t == [Player("Bob", 2, 1, 0)]
    ensures Update(t, "Bob", -1) == [Player("Bob", 2, 1, 1)]
  {
  }

  /** "no" at the first prompt: the player stands on 0, the dealer still
      plays to 17 or more, and the player loses unless the dealer busts. */
  lemma {:induction false} StandOnZero(rolls: seq<nat>, more: seq<string>)
    requires |rolls| >= HandRolls
    ensures var r := PlayHand(rolls, ["no"] + more);
      r.Some? && r.value.player == 0 && r.value.path == Stood && r.value.dealer >= 17
      && r.value.result == (if r.value.dealer > 21 then 1 else -1)
      && r.value.replies == more
  {
    var p := Play(0, rolls[1..], ["no"] + more, [FaceUp(DrawCard(rolls[0]))]);
    assert PlayerStep(p).Stop?;
    assert (["no"] + more)[1..] == more;
    var t := PlayerTurn(p);
    assert t.Some? && t.value.1 == Stood && t.value.0.score == 0 && t.value.0.replies == more;
    assert |t.value.0.rolls| >= 16;
  }
}

=== FILE: session.dfy ===
/** One client session as `handle_client` runs it (server_blackjack.c:336-384):
    the name prompt, then the menu loop dispatching on the first byte of
    each reply, and the save of the table when the loop ends. The session
    works on the process's own table and on the rankings file, both passed
    in and handed back as a `Store`. */
module Session {
  import opened Options
  import opened CText
  import opened Messages
  import opened Engine
  import opened Rankings

  /** The in-memory table and the rankings file (`None`: no file to open). */
  datatype Store = Store(table: seq<Player>, file: Option<string>)

  /** `save_rankings`: the file is rewritten from the table. */
  function Persist(s: Store): Store
  {
    Store(s.table, Some(Save(s.table)))
  }

  /** The four ways a menu reply is read. */
  datatype Choice = PlayChoice | ViewChoice | QuitChoice | OtherChoice

  /** The dispatch at server_blackjack.c:366-378: `strncmp(buff, "1", 1)`
      and its siblings look at the first byte only. */
  function MenuChoice(reply: string): (c: Choice)
    ensures c == PlayChoice <==> |reply| > 0 && reply[0] == '1'
    ensures c == ViewChoice <==> |reply| > 0 && reply[0] == '2'
    ensures c == QuitChoice <==> |reply| > 0 && reply[0] == '3'
    ensures c == OtherChoice <==> |reply| == 0 || reply[0] !in "123"
  {
    if "1" <= reply then PlayChoice
    else if "2" <= reply then ViewChoice
    else if "3" <= reply then QuitChoice
    else OtherChoice
  }

  /** The session between menu prompts: the store, the `rand()` results
      and replies still to come, and the messages sent so far. */
  datatype Visit = Visit(store: Store, rolls: seq<nat>, replies: seq<string>, sent: seq<Msg>)

  /** One pass of the menu loop: `Again` goes round, `Done` leaves the loop
      (option 3 or no reply), `NoCards` is a hand that ran out of rolls. */
  datatype Turn = Again(next: Visit) | Done(next: Visit) | NoCards

  /** The table after a hand for `name` with `result`, saved at once
      (server_blackjack.c:331-332). */
  function Record(s: Store, name: string, result: int): (r: Store)
    ensures r.table == Update(s.table, name, result)
    ensures r.file == Some(Save(r.table))
    // the rewritten file loads back as exactly the updated table, for
    // tables the format can carry
    ensures |r.table| <= MaxPlayers && Storable(r.table) ==> Load(r.file, s.table) == r.table
  {
    var t := Update(s.table, name, result);
    if |t| <= MaxPlayers && Storable(t) then
      LoadSaveRoundTrip(t, s.table);
      Persist(Store(t, s.file))
    else
      Persist(Store(t, s.file))
  }

  /** One pass of the loop at server_blackjack.c:351-379 for the player
      `name`. */
  function MenuStep(name: string, v: Visit): (r: Turn)
    // every pass starts with the menu
    ensures !r.NoCards? ==> v.sent + [Menu(name)] <= r.next.sent
    // no reply: the loop ends with nothing changed
    ensures |v.replies| == 0 ==>
      r.Done? && r.next.store == v.store && r.next.rolls == v.rolls && r.next.replies == []
    // "3...": goodbye, and the loop ends with nothing changed
    ensures |v.replies| > 0 && MenuChoice(v.replies[0]) == QuitChoice ==>
      r == Done(Visit(v.store, v.rolls, v.replies[1..], v.sent + [Menu(name), Goodbye(name)]))
    // anything but "1", "2", "3": rejected, nothing else changes
    ensures |v.replies| > 0 && MenuChoice(v.replies[0]) == OtherChoice ==>
      r == Again(Visit(v.store, v.rolls, v.replies[1..], v.sent + [Menu(name), InvalidOption]))
    // "2...": the table is reloaded from the file and listed; the file stays
    ensures |v.replies| > 0 && MenuChoice(v.replies[0]) == ViewChoice ==>
      r.Again? && r.next.store == Store(Load(v.store.file, v.store.table), v.store.file)
      && r.next.sent == v.sent + [Menu(name)] + Display(r.next.store.table)
      && r.next.rolls == v.rolls && r.next.replies == v.replies[1..]
    // "1...": a hand is played on the following replies and its result
    // recorded in the table and the file
    ensures |v.replies| > 0 && MenuChoice(v.replies[0]) == PlayChoice ==>
      (r.NoCards? <==> PlayHand(v.rolls, v.replies[1..]).None?)
      && (r.Again? ==>
            var h := PlayHand(v.rolls, v.replies[1..]).value;
            r.next.store == Record(v.store, name, h.result)
            && r.next.rolls == h.rolls && r.next.replies == h.replies
            && r.next.sent == v.sent + [Menu(name)] + h.sent)
    ensures r.Again? ==> |r.next.replies| < |v.replies|
    ensures r.NoCards? ==> |v.replies| > 0 && |v.rolls| < HandRolls
    ensures !r.NoCards? ==> |r.next.rolls| <= |v.rolls| <= |r.next.rolls| + HandRolls
    ensures !r.NoCards? && |v.store.table| <= MaxPlayers ==> |r.next.store.table| <= MaxPlayers
  {
    var sent := v.sent + [Menu(name)];
    if |v.replies| == 0 then Done(v.(sent := sent))
    else
      var reply := v.replies[0];
      var replies := v.replies[1..];
      match MenuChoice(reply)
      case PlayChoice =>
        (match PlayHand(v.rolls, replies)
         case None => NoCards
         case Some(h) => Again(Visit(Record(v.store, name, h.result), h.rolls, h.replies, sent + h.sent)))
      case ViewChoice =>
        var table := Load(v.store.file, v.store.table);
        Again(Visit(Store(table, v.store.file), v.rolls, replies, sent + Display(table)))
      case QuitChoice =>
        assert sent + [Goodbye(name)] == v.sent + [Menu(name), Goodbye(name)];
        Done(Visit(v.store, v.rolls, replies, sent + [Goodbye(name)]))
      case OtherChoice =>
        assert sent + [InvalidOption] == v.sent + [Menu(name), InvalidOption];
        Again(Visit(v.store, v.rolls, replies, sent + [InvalidOption]))
  }

  /** The menu loop and the unconditional save after it
      (server_blackjack.c:351-381). */
  function MenuLoop(name: string, v: Visit): (r: Option<Visit>)
    // whichever way the loop ends, the file holds the final table
    ensures r.Some? ==> r.value.store.file == Some(Save(r.value.store.table))
    ensures r.Some? && |v.store.table| <= MaxPlayers ==> |r.value.store.table| <= MaxPlayers
    ensures r.Some? ==> v.sent + [Menu(name)] <= r.value.sent
    // every hand takes at least one reply and at most `HandRolls` rolls
    ensures |v.rolls| >= HandRolls * |v.replies| ==> r.Some?
    decreases |v.replies|
  {
    match MenuStep(name, v)
    case NoCards => None
    case Done(w) => Some(w.(store := Persist(w.store)))
    case Again(w) => MenuLoop(name, w)
  }

  /** `handle_client`: the name prompt; no name means the connection is
      closed at once, with no save. Otherwise the name is what the buffer
      holds up to its first NUL, and the menu loop runs. */
  function HandleClient(store: Store, rolls: seq<nat>, replies: seq<string>): (r: Option<Visit>)
    requires |replies| > 0 ==> |CStr(replies[0])| <= NameWidth
    ensures |replies| == 0 ==> r == Some(Visit(store, rolls, [], [NamePrompt]))
    ensures |replies| > 0 && r.Some? ==> r.value.store.file == Some(Save(r.value.store.table))
    ensures |replies| > 0 && r.Some? ==> [NamePrompt, Menu(CStr(replies[0]))] <= r.value.sent
    ensures r.Some? && |store.table| <= MaxPlayers ==> |r.value.store.table| <= MaxPlayers
    ensures |rolls| >= HandRolls * |replies| ==> r.Some?
  {
    if |replies| == 0 then Some(Visit(store, rolls, [], [NamePrompt]))
    else MenuLoop(CStr(replies[0]), Visit(store, rolls, replies[1..], [NamePrompt]))
  }

  /** What a session leaves behind is what the next load reads: the file
      and the table agree, for tables the format can carry. */
  lemma {:induction false} NextLoadSeesFinalTable(store: Store, rolls: seq<nat>, replies: seq<string>, v: Visit, later: seq<Player>)
    requires |replies| > 0 && |CStr(replies[0])| <= NameWidth
    requires |store.table| <= MaxPlayers
    requires HandleClient(store, rolls, replies) == Some(v)
    requires Storable(v.store.table)
    ensures Load(v.store.file, later) == v.store.table
  {
    LoadSaveRoundTrip(v.store.table, later);
  }

  /** A fresh session process starts with an empty table and never loads
      before a hand, so playing first rewrites the file with the one new
      record: whatever the file held before is gone. */
  lemma {:induction false} PlayFirstDropsFileRecords(file: Option<string>, name: string, rolls: seq<nat>, replies: seq<string>, h: Hand)
    requires |replies| > 0 && MenuChoice(replies[0]) == PlayChoice
    requires PlayHand(rolls, replies[1..]) == Some(h)
    ensures var r := MenuStep(name, Visit(Store([], file), rolls, replies, []));
      r.Again? && r.next.store.file
        == Some(Save([Player(Truncate(name), Tally(h.result == 1), Tally(h.result == 0), Tally(h.result == -1))]))
  {
  }
}
